=== FILE: README.md ===
# erebrusvps deployment core, in Dafny

erebrusvps is a small Go service that deploys Git repositories as
containers on a VPS. On startup `main` installs nginx and openssl with
apt-get, generates a local certificate authority, and then serves `POST
/deploy`. That endpoint clones the repository under
`/opt/deployments/<project>`, adds a Dockerfile and a docker-compose file,
brings the service up, and publishes it as `http://<project>.localhost`
through an nginx virtual host. A websocket endpoint fans log lines out to
every connected client. The Docker installation, `Install`, is a separate
entry point that `main` does not call.

This project models the deterministic core beneath that plumbing. It covers:

- the request handling of `deploymentHandler`: the method and body checks, the
  port default and the project name derived from the URL (`Handler`);
- the `apt-get` rewrite and the error shape of `ExecuteCommand`, and lists of
  commands run until the first failure (`Command`);
- `Install` with its kernel steps, the reboot check and its Docker steps
  (`Installer`), and the command loop of `generateSSLCertificates`
  (`Certificates`);
- `DeployProject` and its six stages over a map-based filesystem
  (`Deployer`), with the Dockerfile, compose file and nginx site it renders
  (`Templates`);
- the client set of the websocket log broadcaster (`Broadcaster`).

The stop-at-first-failure pattern shared by `Install`, the certificate loop
and `DeployProject` is defined once, in `Sequencing.RunAll`. The Go helpers
the core relies on are written out in `Text`: `strings.Index`,
`strings.Replace` with count 1, `strings.Split` on `/` and
`strings.TrimSuffix`. Go's `error` returns are `Outcomes.Outcome` values.

What the outside world answers is always an input. This covers a process's
pipes, start and exit status, the file writes, the clone, `docker-compose up`,
the symlink, the reload, the existence of `/var/run/reboot-required`, and
which websocket writes fail. Every property therefore holds for every possible
answer. Command outcomes are indexed by how many `ExecuteCommand` calls came
before, so the same command can succeed once and fail later. The log of a
command run is the command lines `ExecuteCommand` builds and prints
(`[COMMAND] Executing:`, docker/docker_installer.go:25) before it sets up the
process; an entry whose pipes or start fail is in it although `sh` never ran. The order
in which Go ranges over the environment map is an input too: any sequence
holding each entry exactly once. `Deployer.ValidWorld` collects what a
real host guarantees about these answers: the map order, a `git clone`
that writes only inside the workspace, and a clone that refuses a
workspace already holding files. The properties that depend on it
require it.

Several things one might expect of a deployment service are not in the code, and the model follows the code:

- the port is only defaulted to `3000`; no free port is looked up;
- the workspace is created with `MkdirAll` and never deleted and recreated;
- no earlier container is torn down;
- nginx is reloaded without a configuration test first;
- a project that was deployed once cannot be deployed again onto the same
  host, because `git clone` refuses the now non-empty workspace;
- the fallback Dockerfile builds a Go program on `golang:1.21-alpine`
  exposing 8080, not a Node.js one.

## Model

| member | source | states |
|---|---|---|
| `Outcomes.Wrap` | docker/deployer.go:29-31 | `fmt.Errorf(prefix + "%v", err)` on a Go error: nil stays nil, and an error's text gains the prefix |
| `Text.Index` | docker/docker_installer.go:21-22 | finds an occurrence exactly when the text contains the pattern, and the position found is the leftmost occurrence |
| `Text.ReplaceFirst` | docker/docker_installer.go:22 | without an occurrence the text is unchanged; otherwise the leftmost occurrence is replaced and the text before and after it is kept |
| `Text.TrimSuffix` | main.go:57 | a trailing suffix is removed exactly once (the result plus the suffix gives the input back); without the suffix the text is unchanged |
| `Text.SplitSlash` | main.go:56 | splitting on `/` yields at least one piece, no piece contains `/`, and joining the pieces with `/` gives the input back |
| `Text.SplitJoinSlash` | main.go:56 | the other round trip: splitting the `/`-join of `/`-free pieces gives the pieces back |
| `Text.LastSegment` | main.go:56-57 | `parts[len(parts)-1]` never contains `/` |
| `Text.LastSegmentIsLast` | main.go:56-57 | the last piece is the part of the text after its last `/`, or the whole text when it has no `/` |
| `Command.Rewrite` | docker/docker_installer.go:20-23 | a command without `apt-get` is run unchanged; with one, the line grows by exactly the length difference between the replacement and `apt-get` |
| `Command.RewriteFirstMatch` | docker/docker_installer.go:21-22 | only the leftmost `apt-get` becomes `DEBIAN_FRONTEND=noninteractive apt-get -y`; the text before and after it is preserved |
| `Command.RewriteTwiceInsertsTwice` | docker/docker_installer.go:21-22 | the rewritten line still contains `apt-get`, and rewriting it again inserts the prefix and `-y` a second time |
| `Command.RewriteNotIdempotent` | docker/docker_installer.go:21-22 | on any command containing `apt-get`, rewriting the rewritten line changes it again |
| `Command.Execute` | docker/docker_installer.go:19-88 | the command line built and printed is the rewritten one; the call returns nil only if both pipes, the start and the wait succeed; it waits only after both pipes and the start succeeded; each failure carries its own message prefix |
| `Command.RunCommands` | docker/docker_installer.go:112-117 | a command list never runs more entries than it has; a success ran all of them and a failure ran at least one |
| `Command.RunCommandsIsRunAll` | docker/docker_installer.go:112-117 | a command list is the general stop-at-first-failure run with one command as the step |
| `Command.RunCommandsLog` | docker/docker_installer.go:112-117 | the log holds exactly the command lines `ExecuteCommand` builds and prints for the entries attempted, in list order, the failing entry's included, and nothing after it |
| `Command.RunCommandsOk` | docker/docker_installer.go:181-186 | a command list succeeds if and only if every entry's command succeeds |
| `Command.RunCommandsFailure` | docker/docker_installer.go:112-117 | a failed list stopped at its first failing entry: every earlier entry succeeded, and the error is that entry's error behind the entry's prefix |
| `Command.RunCommandsFirstFailure` | docker/docker_installer.go:181-186 | if entry `j` is the first to fail, exactly `j + 1` entries run and the error is entry `j`'s, behind its prefix |
| `Sequencing.RunAll` | docker/deployer.go:26-63 | the count of steps run is bounded by the list; a success ran every step, a failure ran at least one |
| `Sequencing.RunAllAppend` | docker/deployer.go:28-56 | running `a + b` runs `a` and, only if that succeeded, runs `b` from the state `a` left |
| `Sequencing.RunAllFailure` | docker/deployer.go:28-56 | a failed run failed in its last step run: the steps before it all succeeded, and that step alone produced the final state and error |
| `Sequencing.RunAllIgnoresLaterSteps` | docker/deployer.go:28-56 | after a failure nothing later runs: replacing every later step leaves the run unchanged |
| `Sequencing.RunAllPrefixSucceeds` | docker/deployer.go:28-56 | every prefix of a successful run succeeds |
| `Installer.StepsOf` | docker/docker_installer.go:112-117 | each table row becomes a command whose failure is reported as `"<description> failed: "` plus the command's error |
| `Installer.Install` | docker/docker_installer.go:91-190 | no contract of its own; it is `InstallWith` over the source's kernel and Docker step tables, whose behaviour `InstallWith`, `InstallSucceeds`, `InstallKernelFailure`, `InstallReboot` and `InstallDockerFailure` state |
| `Installer.InstallWith` | docker/docker_installer.go:91-190 | a completed install needs no reboot and has run exactly the kernel steps and then the Docker steps; a scheduled reboot happens only when one is required, and then at most the kernel steps and the reboot command ran |
| `Installer.InstallSucceeds` | docker/docker_installer.go:112-189 | `Install` completes if and only if no reboot is required and every kernel step and every Docker step succeeds |
| `Installer.InstallKernelFailure` | docker/docker_installer.go:112-117 | the first failing kernel step ends `Install` with that step's description in the error; no later kernel step, reboot check or Docker step runs |
| `Installer.InstallReboot` | docker/docker_installer.go:120-131 | after the kernel steps, a required reboot is the next and last command; the outcome is the scheduled reboot or `"failed to schedule reboot: "` plus the error |
| `Installer.InstallDockerFailure` | docker/docker_installer.go:181-186 | without a reboot, the first failing Docker step ends `Install` with its description in the error, after all kernel steps and the Docker steps before it |
| `Certificates.CertificateSteps` | main.go:170-174 | each certificate command is run as itself, with its failure reported as `"failed to execute command '<cmd>': "` plus the error |
| `Certificates.CertificateCommandsSucceed` | main.go:169-180 | the certificate loop succeeds if and only if every command succeeds, and then every command's line was built and printed, in order |
| `Certificates.CertificateCommandsFirstFailure` | main.go:170-174 | the first failing command stops the loop: the error names that command, and no later command runs |
| `Templates.DefaultDockerfileExposesInternalPort` | docker/deployer.go:74-80 | the fallback Dockerfile starts from `golang:1.21-alpine` and exposes 8080, the port the compose file maps to |
| `Templates.EnvLines` | docker/deployer.go:104-107 | one `      - k=v` line per environment entry, in the order the entries are visited |
| `Templates.EnvLinesPermutation` | docker/deployer.go:104-107 | entry sequences that are permutations of each other give permutations of the same lines |
| `Templates.EnvBlockOrderIndependent` | docker/deployer.go:104-107 | whatever order Go ranges over the map in, the block holds the same multiset of lines |
| `Templates.EnvBlockEntries` | docker/deployer.go:104-107 | the block has exactly one line per map entry: every variable has its `k=v` line, and every line is the line of a variable with its value |
| `Templates.EnvBlockEmpty` | docker/deployer.go:104-113 | an empty map gives an empty environment block |
| `Templates.ComposeFile` | docker/deployer.go:86-114 | no contract of its own; the compose text as the template's pieces, whose content `ComposeFileContents` states |
| `Templates.NginxConfig` | docker/deployer.go:130-146 | no contract of its own; the site text as the template's pieces, whose content `NginxConfigContents` states |
| `Templates.ComposeFileContents` | docker/deployer.go:87-114 | the compose file starts with `version: '3'` and contains the service `<name>` built from `.`, the port mapping `"<port>:8080"`, the environment block followed by `restart: always`, and the external network `deployment-network` |
| `Templates.NginxConfigContents` | docker/deployer.go:131-146 | the site listens on port 80 for `<name>.localhost` and proxies to `http://localhost:<port>`, passing WebSocket upgrades through |
| `Deployer.PathTextDistinct` | docker/deployer.go:28 | for every project name, the workspace, its Dockerfile, its compose file, the nginx site and its link have five pairwise different path texts (the site paths are built at lines 147 and 155, the files at 71 and 116) |
| `Deployer.EmptyNameAliases` | docker/deployer.go:28 | with the empty project name the workspace is `/opt/deployments` itself, so that project's Dockerfile has the same path text as the workspace of a project named `Dockerfile` |
| `Deployer.MakeWorkspace` | docker/deployer.go:28-31 | the stage's outcome is `MkdirAll`'s; it attempts one `MakeDir`; on success the workspace exists; every entry already on the host is kept as it was |
| `Deployer.CloneRepository` | docker/deployer.go:65-68 | the stage succeeds exactly when `git clone` does; a failed clone returns its error and changes no file; a successful one adds exactly the cloned paths; it attempts one `git clone` of the URL into the workspace |
| `Deployer.EnsureDockerfile` | docker/deployer.go:70-84 | an existing Dockerfile means success with the host left exactly as it was |
| `Deployer.EnsureDockerfileContent` | docker/deployer.go:70-84 | the step succeeds if and only if a Dockerfile exists or the write succeeds; the default is written only when none exists; a failed write (writes are all-or-nothing in the model) leaves the filesystem unchanged |
| `Deployer.EnsureDockerfileIdempotent` | docker/deployer.go:70-84 | after a successful first ensure, ensuring the Dockerfile again changes neither the files, the log nor the outcome: twice is the same as once |
| `Deployer.CreateDockerCompose` | docker/deployer.go:86-116 | the stage's outcome is exactly the write's; it attempts one write, of the project's compose file; a failed write changes no file and a successful one adds only the compose path |
| `Deployer.ComposeOverwrites` | docker/deployer.go:104-116 | the compose file afterwards depends only on the request and the entry order, whatever was there before, and every other file is kept; when the entries are an iteration order of the request's `EnvVars`, the environment block has exactly one line per variable, each variable's `k=v` line among them |
| `Deployer.BuildAndRun` | docker/deployer.go:119-128 | no contract of its own; `BuildAndRunIgnoresNetwork` states its outcome, its effect and that the network result does not matter |
| `Deployer.BuildAndRunIgnoresNetwork` | docker/deployer.go:119-128 | the outcome of `docker network create` never matters; the stage's outcome is exactly that of `docker-compose up`, which runs in the workspace after the network command, and no file changes |
| `Deployer.ConfigureNginx` | docker/deployer.go:130-162 | no contract of its own; `ConfigureNginxOutcome` and `ConfigureNginxFiles` state its outcome, order of effects and files |
| `Deployer.ConfigureNginxOutcome` | docker/deployer.go:130-162 | the stage succeeds if and only if the site is written, the link is in place (made now or already there) and the reload succeeds; the write comes first; a failed write stops before the symlink, returns the write's error, leaves the filesystem unchanged and logs only the write; after a successful write the symlink is always attempted next, even when the link exists; a symlink error other than an existing link is returned and stops before the reload; otherwise the result is the reload's; the reload comes last and only after write and link |
| `Deployer.ConfigureNginxFiles` | docker/deployer.go:150-161 | a successful nginx stage leaves the site holding the rendered config and the link in place, changes no other file, and adds no path besides the site and its link |
| `Deployer.DeployProject` | docker/deployer.go:26-63 | no contract of its own; the six stages through `Sequencing.RunAll`, stated by `DeployFirstFailure`, `DeploySucceedsIff`, `DeployLeavesFiles`, `DeployCarriesEnv` and `DeployCloneFailure` |
| `Deployer.DeployFirstFailure` | docker/deployer.go:26-56 | a failed deployment failed in exactly one stage, after every earlier stage succeeded, with that stage's prefix in front of its error and no result |
| `Deployer.DeploySucceedsIff` | docker/deployer.go:26-63 | a deployment succeeds if and only if the workspace, the clone, the Dockerfile (unless the repository has one), the compose file, `docker-compose up`, the site write, the symlink (unless the link exists) and the reload all succeed; the result is then `success`, `http://<name>.localhost`, the request's port and no error |
| `Deployer.DeployLeavesFiles` | docker/deployer.go:26-62 | after a successful deployment the workspace, a Dockerfile, the compose file rendered for the request, the nginx site and its link are all in place; when the clone stays inside the workspace every path outside the project keeps its entry and no path outside the project appears |
| `Deployer.DeployedTexts` | docker/deployer.go:100-146 | after a successful deployment the compose file on the host renders to a text that builds the project's service and maps `"<port>:8080"`, and the nginx site renders to a text that answers for `<project>.localhost` and proxies to `http://localhost:<port>` |
| `Deployer.DeployCarriesEnv` | docker/deployer.go:104-116 | the compose file of a successful deployment carries exactly the request's environment variables: one line per variable, each with its value, and no other line |
| `Deployer.DeployIntoOccupiedWorkspace` | docker/deployer.go:28-36 | a deployment into a workspace that already holds files fails, at the workspace or, when that succeeds, with `"failed to clone repository: "` plus the clone's error |
| `Deployer.RedeployFails` | docker/deployer.go:28-36 | deploying a project a second time onto the host its first successful deployment left behind always fails |
| `Deployer.DeployCloneFailure` | docker/deployer.go:33-36 | a failed clone ends the deployment with `"failed to clone repository: "` plus the error, after only the workspace and the clone were attempted |
| `Deployer.WidgetsDeployment` | docker/deployer.go:58-62 | project `widgets` on port 3000, deployed on an empty host where every call succeeds, reports `http://widgets.localhost` on port 3000 |
| `Handler.DeriveProjectName` | main.go:54-58 | the derived project name never contains `/` |
| `Handler.DeriveProjectNameIsLastSegment` | main.go:56-57 | the derived name is the last `/`-separated segment of the URL, with exactly one trailing `.git` removed when present |
| `Handler.DeriveFromLastSegment` | main.go:56-57 | a URL ending in `/<segment>` names the project `<segment>` minus one trailing `.git` |
| `Handler.DeriveStripsOneGit` | main.go:57 | only one suffix is stripped: `.../x.git.git` names the project `x.git` |
| `Handler.DeriveWithoutSlash` | main.go:56-57 | a URL without `/` names the project after the whole URL minus one trailing `.git` |
| `Handler.DeriveTrailingSlash` | main.go:54-58 | a URL ending in `/` derives the empty name |
| `Handler.DeriveExample` | main.go:56-57 | `https://example.com/org/app.git` names the project `app` |
| `Handler.HandleDeploysEmptyName` | main.go:54-61 | a request whose URL ends in `/` is not rejected: it is deployed as the project with the empty name, with its port defaulted |
| `Handler.Normalize` | main.go:48-58 | no contract of its own; `NormalizeDefaults` and `NormalizeIdempotent` state it |
| `Handler.NormalizeDefaults` | main.go:48-58 | an empty port becomes `3000`; a given port is kept; a given project name is kept; only an empty one is derived from the URL; the URL and the environment are untouched |
| `Handler.NormalizeIdempotent` | main.go:48-58 | filling in the defaults twice is the same as filling them in once |
| `Handler.Handle` | main.go:30-69 | no contract of its own; `HandleRejectsMethod`, `HandleRejectsBody`, `HandleDeploys`, `HandleDeploysEmptyName` and `HandleCarriesEnv` state it |
| `Handler.HandleRejectsMethod` | main.go:31-34 | any method but POST is answered 405 `Method not allowed` before the body is looked at, and nothing is deployed |
| `Handler.HandleRejectsBody` | main.go:36-46 | a body that does not decode, or one with an empty `git_url`, is answered 400, nothing is deployed, and the host is untouched |
| `Handler.HandleDeploys` | main.go:60-68 | a valid request is deployed with its defaults filled in; the reply is the result as JSON if and only if the deployment succeeds, and otherwise a 500 carrying the stage-tagged error |
| `Handler.HandleCarriesEnv` | main.go:60-68 | when the handler answers with the result, the deployed compose file has exactly one environment line per variable of the request, each with its value |
| `Broadcaster.Connect` | websocket/logger.go:34-42 | a successful upgrade registers the connection and changes no other client; a failed one changes nothing |
| `Broadcaster.Disconnect` | websocket/logger.go:45-50 | when the read loop ends the connection is unregistered and closed, and no other client changes |
| `Broadcaster.Broadcasted` | websocket/logger.go:65-77 | no contract of its own; the set form of one broadcast, which `BroadcastMatches` proves the client-by-client loop computes and `BroadcastNeverAdds` characterises |
| `Broadcaster.Broadcast` | websocket/logger.go:65-77 | one message is written to every registered client; the clients whose write failed are closed and removed, and the others remain |
| `Broadcaster.BroadcastMatches` | websocket/logger.go:66-74 | the client-by-client loop leaves the same logger as removing the failed clients from the set all at once |
| `Broadcaster.BroadcastNeverAdds` | websocket/logger.go:66-76 | a broadcast never registers anyone: the set afterwards is the set before minus the failed clients |
| `Broadcaster.DisconnectAfterFailedWrite` | websocket/logger.go:45-72 | a client dropped by a failed write is removed again by its deferred cleanup, which is then a no-op |
| `Broadcaster.DisconnectIdempotent` | websocket/logger.go:45-50 | removing a client twice is the same as removing it once |
| `Broadcaster.ConnectThenDisconnect` | websocket/logger.go:40-50 | a new connection that is upgraded, registered and later cleaned up leaves the client set as it was |
| `Broadcaster.Drain` | websocket/logger.go:65-77 | no contract of its own; one broadcast per message, stated by `DrainKeepsSurvivors` |
| `Broadcaster.DrainKeepsSurvivors` | websocket/logger.go:65-77 | after any number of messages the remaining clients are those registered at the start whose writes never failed; every dropped client was closed |

## Left out

- The reader goroutines that copy a command's stdout and stderr, and the `done` channel (docker/docker_installer.go:44-80). These are process I/O and concurrency; a command's pipes, start and wait are inputs.
- The `[SYSTEM]` and `[CERT]` progress lines and the command output printed to stdout. They are output only; the `[COMMAND] Executing:` line is the model's command log.
- Real filesystem, git, docker, docker-compose, systemctl, shutdown and openssl effects. Each call is an outcome input, and the filesystem is a map from symbolic paths to directories, files and links.
- `os.Exit(0)` after a scheduled reboot. It is the `RebootScheduled` outcome, with no code after it.
- The commands `main` runs before the certificates, the certificate directory, the two configuration files and the text of the certificate commands (main.go:72-137, 183-206). Configuration payloads and the exact shell strings carry no logic; the loop is modelled over any command list.
- The HTTP and HTTPS servers, the HTTP-to-HTTPS redirect, the CORS wrapper that answers OPTIONS itself (main.go:216-228), and JSON encoding and decoding. The body is given already decoded, or as undecodable.
- `filepath.Join`'s cleaning of project names containing `/`, `.` or `..`. Paths are symbolic values; `Deployer.PathTextDistinct` states that one project's five paths have different texts, not that two projects' paths do.
- Aliasing through the empty project name. With the name `""` the workspace is `/opt/deployments` itself, and its files share their path text with the workspaces of other projects (`Deployer.EmptyNameAliases`). The symbolic filesystem keeps these paths apart, so it does not model one project's files overwriting another's. Likewise the site and its link are then `/etc/nginx/sites-available/` and `/etc/nginx/sites-enabled/` themselves: the real `os.WriteFile` of the site fails on a directory, while the model's write succeeds or fails only as the world answers and writes a file.
- Partial writes. `os.WriteFile` truncates the file before writing, so a write that fails midway leaves an empty or partial file. The model treats every write as all-or-nothing: a failed write leaves the filesystem unchanged.
- What `git clone` does with the disk beyond its answer. `DeployProject` accepts any clone answer; `Deployer.ValidWorld` states the constraints of a real clone (files only inside the workspace, refusal of a non-empty workspace), and only the lemmas that need them require them.
- `os.MkdirAll` on a path that exists as a file, and `os.Stat` errors other than "does not exist". An existing entry counts as present, and a failed `MkdirAll` is an input.
- The gorilla websocket upgrader, the mutex and the broadcast channel (websocket/logger.go:16-32, 61-63). Clients are numbers and the logger is a sequential state machine. `SendLog` only puts a message on the channel; `Broadcaster.Drain` takes the messages as a list.
- Go's random map iteration order. It is the input `World.envEntries`; `Templates.IsIterationOrder` says it holds each entry of the request's map exactly once, and the properties are stated on the multiset of environment lines.
- `Templates.ComposeFileContents`: states the first line and the pieces the compose file contains, not its full text character by character; the full text is `Templates.ComposeFile` itself.
- `Templates.NginxConfigContents`: states the server name, the proxy target and the upgrade headers the site contains, not the full text; the full text is `Templates.NginxConfig` itself.

=== FILE: broadcaster.dfy ===
/** The log broadcaster of websocket/logger.go, as a sequential state
    machine over the set of connected clients. Connections are identified by
    number; whether a write to a client fails is an input. */
module Broadcaster {

  type ClientId = nat

  /** The clients currently registered, and the connections the service has
      closed. */
  datatype Logger = Logger(clients: set<ClientId>, closed: set<ClientId>)

  /** `HandleWebSocket` after the upgrade: a successful upgrade registers the
      connection; a failed one changes nothing. */
  function Connect(l: Logger, c: ClientId, upgraded: bool): (r: Logger)
    ensures upgraded ==> c in r.clients
    ensures r.clients - {c} == l.clients - {c}
    ensures !upgraded ==> r == l
  {
    if upgraded then Logger(l.clients + {c}, l.closed) else l
  }

  /** The deferred cleanup when the read loop of `c` ends: unregister it and
      close it. */
  function Disconnect(l: Logger, c: ClientId): (r: Logger)
    ensures c !in r.clients && c in r.closed
    ensures r.clients + {c} == l.clients + {c}
  {
    Logger(l.clients - {c}, l.closed + {c})
  }

  /** What one pass of `handleMessages` leaves behind, stated on sets: every
      client whose write failed is closed and unregistered, and the others
      stay. */
  function Broadcasted(l: Logger, failing: set<ClientId>): Logger {
    Logger(l.clients - failing, l.closed + (l.clients * failing))
  }

  /** One message of `handleMessages`: write to every registered client in
      turn; a client whose write fails is closed and deleted. Returns the
      clients a write was attempted to. */
  method Broadcast(l: Logger, failing: set<ClientId>) returns (r: Logger, attempted: set<ClientId>)
    ensures attempted == l.clients
    ensures r.clients == l.clients - failing
    ensures r.closed == l.closed + (l.clients * failing)
  {
    var pending := l.clients;
    var clients := l.clients;
    var closed := l.closed;
    attempted := {};
    while pending != {}
      invariant pending <= l.clients
      invariant attempted == l.clients - pending
      invariant clients == l.clients - (attempted * failing)
      invariant closed == l.closed + (attempted * failing)
      decreases pending
    {
      var c :| c in pending;
      attempted := attempted + {c};
      pending := pending - {c};
      if c in failing {
        closed := closed + {c};
        clients := clients - {c};
      }
    }
    r := Logger(clients, closed);
  }

  /** The loop and the set statement agree. */
  method BroadcastMatches(l: Logger, failing: set<ClientId>) returns (r: Logger)
    ensures r == Broadcasted(l, failing)
  {
    var attempted;
    r, attempted := Broadcast(l, failing);
  }

  /** A broadcast never registers anyone: the clients afterwards are the ones
      before, less those whose write failed, and nobody in `failing` stays. */
  lemma {:induction false} BroadcastNeverAdds(l: Logger, failing: set<ClientId>)
    ensures Broadcasted(l, failing).clients <= l.clients
    ensures Broadcasted(l, failing).clients !! failing
    ensures l.clients - failing <= Broadcasted(l, failing).clients
  {
  }

  /** A client dropped by a failed write is unregistered again by its
      deferred cleanup, which then changes nothing in the client set. */
  lemma {:induction false} DisconnectAfterFailedWrite(l: Logger, failing: set<ClientId>, c: ClientId)
    requires c in l.clients && c in failing
    ensures var b := Broadcasted(l, failing);
            c !in b.clients && c in b.closed && Disconnect(b, c) == b
  {
  }

  /** Unregistering twice is unregistering once. */
  lemma {:induction false} DisconnectIdempotent(l: Logger, c: ClientId)
    ensures Disconnect(Disconnect(l, c), c) == Disconnect(l, c)
  {
  }

  /** A connection that is upgraded, registered and later cleaned up leaves
      the client set as it was, when it was not registered before. (A failed
      upgrade returns before the cleanup is deferred, and `Connect` then
      changes nothing.) */
  lemma {:induction false} ConnectThenDisconnect(l: Logger, c: ClientId)
    requires c !in l.clients
    ensures Disconnect(Connect(l, c, true), c).clients == l.clients
  {
  }

  // ---------------------------------------------------------------------
  // Draining the message channel
  // ---------------------------------------------------------------------

  /** `handleMessages` over the messages sent so far: one broadcast per
      message, `failures[i]` being the clients whose write of message `i`
      fails. */
  function Drain(l: Logger, failures: seq<set<ClientId>>): Logger
    decreases |failures|
  {
    if |failures| == 0 then l else Drain(Broadcasted(l, failures[0]), failures[1..])
  }

  /** Every client whose write failed, over all the messages in `failures`. */
  function FailedAny(failures: seq<set<ClientId>>): set<ClientId>
    decreases |failures|
  {
    if |failures| == 0 then {} else failures[0] + FailedAny(failures[1..])
  }

  /** Draining messages only ever removes clients: those left are the ones
      registered at the start whose writes never failed, and each dropped
      client was closed. */
  lemma {:induction false} DrainKeepsSurvivors(l: Logger, failures: seq<set<ClientId>>)
    ensures Drain(l, failures).clients == l.clients - FailedAny(failures)
    ensures l.clients * FailedAny(failures) <= Drain(l, failures).closed
    ensures l.closed <= Drain(l, failures).closed
    decreases |failures|
  {
    if |failures| > 0 {
      var b := Broadcasted(l, failures[0]);
      DrainKeepsSurvivors(b, failures[1..]);
    }
  }
}

=== FILE: certificates.dfy ===
/** The command loop of `generateSSLCertificates` (main.go): the certificate
    commands run in list order, and the first one that fails ends the loop
    with an error naming that command as written in the list. The command
    texts themselves are opaque here; the loop works for any list. */
module Certificates {
  import opened Outcomes
  import opened Sequencing
  import opened Command

  function FailurePrefix(command: string): string {
    "failed to execute command '" + command + "': "
  }

  function CertificateSteps(commands: seq<string>): (steps: seq<CommandStep>)
    ensures |steps| == |commands|
    ensures forall j :: 0 <= j < |commands| ==> steps[j] == CommandStep(FailurePrefix(commands[j]), commands[j])
  {
    if |commands| == 0 then []
    else [CommandStep(FailurePrefix(commands[0]), commands[0])] + CertificateSteps(commands[1..])
  }

  /** The loop, run after the commands already in `log`. */
  function RunCertificateCommands(commands: seq<string>, log: seq<string>, os: nat -> Process): Run<seq<string>> {
    RunCommands(CertificateSteps(commands), log, os)
  }

  /** The loop returns nil exactly when every command succeeds, and then
      every command ran, in order. */
  lemma {:induction false} CertificateCommandsSucceed(commands: seq<string>, log: seq<string>, os: nat -> Process)
    ensures var r := RunCertificateCommands(commands, log, os);
            && (r.outcome.Ok? <==> forall j :: 0 <= j < |commands| ==> Execute(commands[j], os(|log| + j)).outcome.Ok?)
            && (r.outcome.Ok? ==> r.state == log + Issued(CertificateSteps(commands)))
  {
    var steps := CertificateSteps(commands);
    RunCommandsOk(steps, log, os);
    RunCommandsLog(steps, log, os);
    assert steps[..|steps|] == steps;
    forall j | 0 <= j < |commands|
      ensures Attempt(steps, log, os, j) == Execute(commands[j], os(|log| + j))
    {
    }
  }

  /** If command `j` is the first to fail, exactly commands 0..j ran, no later
      command ran, and the error names command `j` and carries its error. */
  lemma {:induction false} CertificateCommandsFirstFailure(commands: seq<string>, log: seq<string>, os: nat -> Process, j: nat)
    requires j < |commands|
    requires Execute(commands[j], os(|log| + j)).outcome.Err?
    requires forall i :: 0 <= i < j ==> Execute(commands[i], os(|log| + i)).outcome.Ok?
    ensures var r := RunCertificateCommands(commands, log, os);
            && r.ran == j + 1
            && r.outcome == Err("failed to execute command '" + commands[j] + "': "
                                + Execute(commands[j], os(|log| + j)).outcome.msg)
            && r.state == log + Issued(CertificateSteps(commands)[..j + 1])
  {
    var steps := CertificateSteps(commands);
    assert forall i :: 0 <= i < j ==> Attempt(steps, log, os, i).outcome.Ok?;
    RunCommandsFirstFailure(steps, log, os, j);
  }
}

=== FILE: command.dfy ===
/** `DockerSetup.ExecuteCommand` (docker/docker_installer.go): the `apt-get`
    rewrite, the success/failure shape of one `sh -c` invocation, and lists of
    commands run one after another until the first failure.

    The process itself is not modelled: what the operating system does with
    the pipes, the start and the wait is an input (`Process`), and `os(n)` is
    what happens to the n-th `ExecuteCommand` call. The log of a run is the
    command lines `ExecuteCommand` builds and prints (`[COMMAND] Executing:`)
    before it sets up the process, so a call whose pipes or start fail is in
    the log although `sh` never ran. */
module Command {
  import opened Outcomes
  import opened Text
  import opened Sequencing

  const AptGet := "apt-get"

  /** The text the rewrite puts in front of the `apt-get` it replaces. */
  const InsertedPrefix := "DEBIAN_FRONTEND=noninteractive "

  /** `DEBIAN_FRONTEND=noninteractive apt-get -y`. */
  const NonInteractiveAptGet := InsertedPrefix + AptGet + " -y"

  /** The command line `ExecuteCommand` builds for `sh -c`: the first
      `apt-get`, if any, becomes a non-interactive `apt-get -y`. */
  function Rewrite(command: string): (r: string)
    ensures !Contains(command, AptGet) ==> r == command
    ensures Contains(command, AptGet) ==> |r| == |command| + |NonInteractiveAptGet| - |AptGet|
  {
    if Index(command, AptGet).Some? then
      ReplaceFirst(command, AptGet, NonInteractiveAptGet)
    else
      command
  }

  /** Where the command contains `apt-get`, the rewrite replaces exactly its
      leftmost occurrence and keeps the text on either side. */
  lemma {:induction false} RewriteFirstMatch(command: string, i: nat)
    requires IsFirstMatch(command, AptGet, i)
    ensures Rewrite(command) == command[..i] + NonInteractiveAptGet + command[i + |AptGet|..]
  {
    var k := Index(command, AptGet);
    assert MatchAt(command, AptGet, i);
    FirstMatchUnique(command, AptGet, k.value, i);
  }

  /** The rewrite keeps an `apt-get` in its output: a second rewrite finds
      that `apt-get`, which sits right after the text the first rewrite
      inserted, and inserts the prefix and the `-y` again. */
  lemma {:induction false} RewriteTwiceInsertsTwice(command: string, i: nat)
    requires IsFirstMatch(command, AptGet, i)
    ensures Contains(Rewrite(command), AptGet)
    ensures Rewrite(Rewrite(command))
              == command[..i] + InsertedPrefix + InsertedPrefix + AptGet + " -y -y" + command[i + |AptGet|..]
  {
    var r := Rewrite(command);
    var k := i + |InsertedPrefix|;
    var pre := command[..i];
    var rest := command[i + |AptGet|..];
    RewriteAt(command, i);
    assert r == pre + InsertedPrefix + AptGet + (" -y" + rest);
    RewrittenFirstMatch(command, r, i);
    assert MatchAt(r, AptGet, k);
    RewriteAt(r, k);
    SliceAround(pre, InsertedPrefix, AptGet, " -y" + rest, r);
    RegroupTwice(pre, rest, Rewrite(r));
  }

  /** So the rewrite is not idempotent: on a command containing `apt-get`,
      rewriting the rewritten line changes it again. */
  lemma {:induction false} RewriteNotIdempotent(command: string)
    requires Contains(command, AptGet)
    ensures Rewrite(Rewrite(command)) != Rewrite(command)
  {
    var i := Index(command, AptGet).value;
    RewriteTwiceInsertsTwice(command, i);
    var r := Rewrite(command);
    assert |Rewrite(r)| == |r| + |InsertedPrefix| + 3;
  }

  /** The replacement is the inserted prefix, `apt-get`, and ` -y`. */
  lemma {:induction false} RewriteAt(command: string, i: nat)
    requires IsFirstMatch(command, AptGet, i)
    ensures Rewrite(command) == command[..i] + InsertedPrefix + AptGet + " -y" + command[i + |AptGet|..]
  {
    RewriteFirstMatch(command, i);
  }

  /** The pieces on either side of the middle one of a concatenation. */
  lemma {:induction false} SliceAround(pre: string, mid: string, pat: string, post: string, r: string)
    requires r == pre + mid + pat + post
    ensures r[..|pre| + |mid|] == pre + mid
    ensures r[|pre| + |mid| + |pat|..] == post
  {
    assert r == (pre + mid) + pat + post;
  }

  /** Regrouping the text of a double rewrite. */
  lemma {:induction false} RegroupTwice(pre: string, rest: string, rr: string)
    requires rr == (pre + InsertedPrefix) + (InsertedPrefix + AptGet + " -y") + (" -y" + rest)
    ensures rr == pre + InsertedPrefix + InsertedPrefix + AptGet + " -y -y" + rest
  {
    assert " -y" + " -y" == " -y -y";
  }

  /** In the rewritten text the first `apt-get` is the one the rewrite put
      there, right after the inserted prefix. */
  lemma {:induction false} RewrittenFirstMatch(command: string, r: string, i: nat)
    requires IsFirstMatch(command, AptGet, i)
    requires r == command[..i] + InsertedPrefix + AptGet + " -y" + command[i + |AptGet|..]
    ensures IsFirstMatch(r, AptGet, i + |InsertedPrefix|)
  {
    var k := i + |InsertedPrefix|;
    assert r[k..k + |AptGet|] == AptGet;
    forall j: nat | j < k ensures !MatchAt(r, AptGet, j) {
      if j < i {
        NoEarlierMatch(command, r, i, j);
      } else {
        NoMatchInPrefix(command, r, i, j);
      }
    }
  }

  /** Before the rewrite point the rewritten text has no match: one there
      would either be a match of the input or cross into the inserted text,
      which begins with a letter `apt-get` does not contain. */
  lemma {:induction false} NoEarlierMatch(command: string, r: string, i: nat, j: nat)
    requires IsFirstMatch(command, AptGet, i)
    requires r == command[..i] + InsertedPrefix + AptGet + " -y" + command[i + |AptGet|..]
    requires j < i
    ensures !MatchAt(r, AptGet, j)
  {
    assert r[..i] == command[..i];
    assert !MatchAt(command, AptGet, j);
    if j + |AptGet| <= i {
      assert r[j..j + |AptGet|] == r[..i][j..j + |AptGet|] == command[..i][j..j + |AptGet|] == command[j..j + |AptGet|];
    } else {
      assert r[i] == 'D';
    }
  }

  /** No `apt-get` starts inside the inserted prefix. */
  lemma {:induction false} NoMatchInPrefix(command: string, r: string, i: nat, j: nat)
    requires MatchAt(command, AptGet, i)
    requires r == command[..i] + InsertedPrefix + AptGet + (" -y" + command[i + |AptGet|..])
    requires i <= j < i + |InsertedPrefix|
    ensures !MatchAt(r, AptGet, j)
  {
    var w := InsertedPrefix + [AptGet[0]];
    SliceAfter(command[..i], InsertedPrefix, AptGet, " -y" + command[i + |AptGet|..], r);
    assert r[j + 1] == w[j + 1 - i];
    NoPBeforeAptGet();
    assert r[j + 1] != 'p';
    if j + |AptGet| <= |r| {
      assert r[j..j + |AptGet|][1] == r[j + 1];
      assert AptGet[1] == 'p';
    }
  }

  /** The middle piece of a concatenation, with the first character after it. */
  lemma {:induction false} SliceAfter(pre: string, mid: string, pat: string, post: string, r: string)
    requires 0 < |pat|
    requires r == pre + mid + pat + post
    ensures r[|pre|..|pre| + |mid| + 1] == mid + [pat[0]]
  {
  }

  /** `apt-get` cannot start inside the inserted prefix: its second letter
      `p` occurs neither there nor at the start of `apt-get`. */
  lemma {:induction false} NoPBeforeAptGet()
    ensures 'p' !in InsertedPrefix + [AptGet[0]]
  {
  }

  /** What the operating system does with one `sh -c` invocation: whether each
      of the two pipes could be created, whether the process started, and how
      waiting for it ended (a non-zero exit status is an error here). */
  datatype Process = Process(stdoutPipe: Outcome, stderrPipe: Outcome, start: Outcome, wait: Outcome)

  /** One `ExecuteCommand` call: the command line built for `sh -c`, whether
      the call got as far as waiting for the process, and the returned error. */
  datatype Execution = Execution(command: string, waited: bool, outcome: Outcome)

  function Execute(command: string, p: Process): (r: Execution)
    ensures r.command == Rewrite(command)
    ensures r.outcome.Ok? <==> p.stdoutPipe.Ok? && p.stderrPipe.Ok? && p.start.Ok? && p.wait.Ok?
    ensures r.waited <==> p.stdoutPipe.Ok? && p.stderrPipe.Ok? && p.start.Ok?
    ensures p.stdoutPipe.Err? ==> r.outcome == Err("failed to create stdout pipe: " + p.stdoutPipe.msg)
    ensures p.stdoutPipe.Ok? && p.stderrPipe.Err? ==> r.outcome == Err("failed to create stderr pipe: " + p.stderrPipe.msg)
    ensures p.stdoutPipe.Ok? && p.stderrPipe.Ok? && p.start.Err? ==> r.outcome == Err("failed to start command: " + p.start.msg)
    ensures r.waited && p.wait.Err? ==> r.outcome == Err("command failed: " + p.wait.msg)
  {
    var line := Rewrite(command);
    if p.stdoutPipe.Err? then Execution(line, false, Wrap("failed to create stdout pipe: ", p.stdoutPipe))
    else if p.stderrPipe.Err? then Execution(line, false, Wrap("failed to create stderr pipe: ", p.stderrPipe))
    else if p.start.Err? then Execution(line, false, Wrap("failed to start command: ", p.start))
    else Execution(line, true, Wrap("command failed: ", p.wait))
  }

  /** One entry of a command list: the command, and the text its caller puts
      in front of the error when it fails. */
  datatype CommandStep = CommandStep(prefix: string, command: string)

  /** Runs one entry, appending the command line it builds and prints to the
      log; `os` is indexed by that log's length. */
  function RunStep(os: nat -> Process, st: CommandStep, log: seq<string>): Stepped<seq<string>> {
    var e := Execute(st.command, os(|log|));
    Stepped(log + [e.command], Wrap(st.prefix, e.outcome))
  }

  function Runner(os: nat -> Process): (CommandStep, seq<string>) -> Stepped<seq<string>> {
    (st: CommandStep, log: seq<string>) => RunStep(os, st, log)
  }

  /** The command lines a list of entries builds and prints, in order. */
  function Issued(steps: seq<CommandStep>): (lines: seq<string>)
    ensures |lines| == |steps|
  {
    if |steps| == 0 then [] else [Rewrite(steps[0].command)] + Issued(steps[1..])
  }

  /** What happens to entry `j` of `steps` when the list is run after `log`. */
  function Attempt(steps: seq<CommandStep>, log: seq<string>, os: nat -> Process, j: nat): Execution
    requires j < |steps|
  {
    Execute(steps[j].command, os(|log| + j))
  }

  /** Every entry of `steps`, run after `log`, succeeds. */
  predicate AllSucceed(steps: seq<CommandStep>, log: seq<string>, os: nat -> Process) {
    forall j :: 0 <= j < |steps| ==> Attempt(steps, log, os, j).outcome.Ok?
  }

  /** Runs a command list until the first failure (the loops of
      `Install` and of `generateSSLCertificates`). */
  function RunCommands(steps: seq<CommandStep>, log: seq<string>, os: nat -> Process): (r: Run<seq<string>>)
    ensures r.ran <= |steps|
    ensures r.outcome.Ok? ==> r.ran == |steps|
    ensures r.outcome.Err? ==> 1 <= r.ran
    decreases |steps|
  {
    if |steps| == 0 then Run(log, 0, Ok)
    else
      var first := RunStep(os, steps[0], log);
      if first.outcome.Err? then Run(first.state, 1, first.outcome)
      else
        var rest := RunCommands(steps[1..], first.state, os);
        Run(rest.state, rest.ran + 1, rest.outcome)
  }

  /** A command list is the general stop-at-first-failure sequencing with
      `RunStep` as the step. */
  lemma {:induction false} RunCommandsIsRunAll(steps: seq<CommandStep>, log: seq<string>, os: nat -> Process)
    ensures RunCommands(steps, log, os) == RunAll(steps, log, Runner(os))
    decreases |steps|
  {
    if |steps| > 0 {
      var first := RunStep(os, steps[0], log);
      assert Runner(os)(steps[0], log) == first;
      if first.outcome.Ok? {
        RunCommandsIsRunAll(steps[1..], first.state, os);
      }
    }
  }

  /** One step of a command list, unfolded. */
  lemma {:induction false} RunCommandsUnfold(steps: seq<CommandStep>, log: seq<string>, os: nat -> Process)
    requires |steps| > 0
    ensures var e := Attempt(steps, log, os, 0);
            var log1 := log + [Rewrite(steps[0].command)];
            var rest := RunCommands(steps[1..], log1, os);
            RunCommands(steps, log, os)
              == if e.outcome.Err? then Run(log1, 1, Wrap(steps[0].prefix, e.outcome))
                 else Run(rest.state, rest.ran + 1, rest.outcome)
  {
  }

  /** Entry `j` of the rest of the list, run after the first entry, is entry
      `j + 1` of the whole list. */
  lemma {:induction false} AttemptShift(steps: seq<CommandStep>, log: seq<string>, line: string, os: nat -> Process, j: nat)
    requires j + 1 < |steps|
    ensures Attempt(steps[1..], log + [line], os, j) == Attempt(steps, log, os, j + 1)
  {
  }

  /** A command list runs its entries in list order: the log holds exactly
      the command lines of the entries attempted, the failing one included,
      and nothing after it. */
  lemma {:induction false} RunCommandsLog(steps: seq<CommandStep>, log: seq<string>, os: nat -> Process)
    ensures var r := RunCommands(steps, log, os);
            r.state == log + Issued(steps[..r.ran])
    decreases |steps|
  {
    if |steps| == 0 {
      assert steps[..0] == [];
    } else {
      var r := RunCommands(steps, log, os);
      RunCommandsUnfold(steps, log, os);
      var line := Rewrite(steps[0].command);
      if Attempt(steps, log, os, 0).outcome.Err? {
        assert steps[1..][..0] == [];
        LogStep(steps, 0, log, r.state);
      } else {
        var rt := RunCommands(steps[1..], log + [line], os);
        RunCommandsLog(steps[1..], log + [line], os);
        LogStep(steps, rt.ran, log, r.state);
      }
    }
  }

  /** A log holding the first entry's line and then the lines of the next `n`
      entries holds the lines of the first `n + 1` entries. */
  lemma {:induction false} LogStep(steps: seq<CommandStep>, n: nat, log: seq<string>, state: seq<string>)
    requires n < |steps|
    requires state == log + [Rewrite(steps[0].command)] + Issued(steps[1..][..n])
    ensures state == log + Issued(steps[..n + 1])
  {
    var p := steps[..n + 1];
    assert p[0] == steps[0];
    assert p[1..] == steps[1..][..n];
  }

  /** A command list succeeds exactly when every entry's command succeeds. */
  lemma {:induction false} RunCommandsOk(steps: seq<CommandStep>, log: seq<string>, os: nat -> Process)
    ensures RunCommands(steps, log, os).outcome.Ok? <==> AllSucceed(steps, log, os)
    decreases |steps|
  {
    if |steps| > 0 {
      RunCommandsUnfold(steps, log, os);
      var log1 := log + [Rewrite(steps[0].command)];
      RunCommandsOk(steps[1..], log1, os);
      forall j | 0 <= j < |steps| - 1
        ensures Attempt(steps[1..], log1, os, j) == Attempt(steps, log, os, j + 1)
      {
        AttemptShift(steps, log, Rewrite(steps[0].command), os, j);
      }
      if !Attempt(steps, log, os, 0).outcome.Ok? {
      } else if RunCommands(steps, log, os).outcome.Ok? {
        forall j | 0 <= j < |steps| ensures Attempt(steps, log, os, j).outcome.Ok? {
          if j > 0 { assert Attempt(steps[1..], log1, os, j - 1).outcome.Ok?; }
        }
      } else {
        var j :| 0 <= j < |steps| - 1 && !Attempt(steps[1..], log1, os, j).outcome.Ok?;
        assert !Attempt(steps, log, os, j + 1).outcome.Ok?;
      }
    }
  }

  /** A failed command list stopped at its first failing entry: every entry
      before it succeeded, and the error is that entry's own error behind the
      entry's prefix. */
  lemma {:induction false} RunCommandsFailure(steps: seq<CommandStep>, log: seq<string>, os: nat -> Process)
    requires RunCommands(steps, log, os).outcome.Err?
    ensures var r := RunCommands(steps, log, os);
            && (forall j :: 0 <= j < r.ran - 1 ==> Attempt(steps, log, os, j).outcome.Ok?)
            && Attempt(steps, log, os, r.ran - 1).outcome.Err?
            && r.outcome.msg == steps[r.ran - 1].prefix + Attempt(steps, log, os, r.ran - 1).outcome.msg
    decreases |steps|
  {
    var r := RunCommands(steps, log, os);
    RunCommandsUnfold(steps, log, os);
    var log1 := log + [Rewrite(steps[0].command)];
    var e := Attempt(steps, log, os, 0);
    if e.outcome.Ok? {
      var rt := RunCommands(steps[1..], log1, os);
      assert r.ran == rt.ran + 1 && r.outcome == rt.outcome;
      RunCommandsFailure(steps[1..], log1, os);
      ShiftFailure(steps, log, os, rt.ran - 1);
    } else {
      assert r.ran == 1 && r.outcome == Wrap(steps[0].prefix, e.outcome);
    }
  }

  /** A first failure at entry `n` of the rest of the list, after a first
      entry that succeeded, is a first failure at entry `n + 1` of the whole. */
  lemma {:induction false} ShiftFailure(steps: seq<CommandStep>, log: seq<string>, os: nat -> Process, n: nat)
    requires n + 1 < |steps|
    requires Attempt(steps, log, os, 0).outcome.Ok?
    requires forall j :: 0 <= j < n ==> Attempt(steps[1..], log + [Rewrite(steps[0].command)], os, j).outcome.Ok?
    ensures forall j :: 0 <= j < n + 1 ==> Attempt(steps, log, os, j).outcome.Ok?
    ensures Attempt(steps[1..], log + [Rewrite(steps[0].command)], os, n) == Attempt(steps, log, os, n + 1)
    ensures steps[1..][n] == steps[n + 1]
  {
    var log1 := log + [Rewrite(steps[0].command)];
    AttemptShift(steps, log, Rewrite(steps[0].command), os, n);
    forall j | 0 <= j < n + 1 ensures Attempt(steps, log, os, j).outcome.Ok? {
      if j > 0 {
        AttemptShift(steps, log, Rewrite(steps[0].command), os, j - 1);
      }
    }
  }

  /** The first failing entry decides the run: if entry `j` fails and every
      entry before it succeeds, exactly the first `j + 1` entries run and the
      run fails with entry `j`'s error behind its prefix. */
  lemma {:induction false} RunCommandsFirstFailure(steps: seq<CommandStep>, log: seq<string>, os: nat -> Process, j: nat)
    requires j < |steps|
    requires Attempt(steps, log, os, j).outcome.Err?
    requires forall i :: 0 <= i < j ==> Attempt(steps, log, os, i).outcome.Ok?
    ensures var r := RunCommands(steps, log, os);
            && r.ran == j + 1
            && r.outcome == Err(steps[j].prefix + Attempt(steps, log, os, j).outcome.msg)
            && r.state == log + Issued(steps[..j + 1])
  {
    RunCommandsOk(steps, log, os);
    RunCommandsFailure(steps, log, os);
    RunCommandsLog(steps, log, os);
  }
}

=== FILE: deployer.dfy ===
/** `DeployProject` (docker/deployer.go): turn a deployment request into a
    running container behind an nginx virtual host, in six stages that stop
    at the first failure.

    The host is a filesystem map plus the log of side effects the stages
    attempt (directories made, `git clone`, files written, the symlink,
    `docker network create`, `docker-compose up`, the nginx reload). What the
    outside world answers — whether a write, the clone or a command failed —
    is the `World` oracle, so every property below holds for every answer. */
module Deployer {
  import opened Outcomes
  import opened Sequencing
  import opened Templates
  import opened Text

  /** The places a deployment touches. Paths are kept symbolic; `PathText`
      gives the text the source builds for each. */
  datatype Path =
    | DeployDir(project: string)
    | DeployFile(project: string, file: string)
    | SiteAvailable(project: string)
    | SiteEnabled(project: string)
    | OtherPath(text: string)

  /** What a file holds: text from elsewhere, or one of the rendered
      templates, kept symbolic; `Render` gives the text. */
  datatype Content =
    | Bytes(text: string)
    | GoDockerfile
    | ComposeYaml(project: string, port: string, env: seq<(string, string)>)
    | NginxSite(project: string, port: string)

  function Render(c: Content): string {
    match c
    case Bytes(text) => text
    case GoDockerfile => DefaultDockerfile
    case ComposeYaml(project, port, env) => ComposeFile(project, port, EnvBlock(env))
    case NginxSite(project, port) => NginxConfig(project, port)
  }

  datatype Node = Dir | File(content: Content) | Link(target: Path)

  type Fs = map<Path, Node>

  /** The side effects a deployment performs on its host, in order. */
  datatype Action =
    | MakeDir(path: Path)
    | GitClone(url: string, dir: Path)
    | WriteFile(path: Path)
    | Symlink(target: Path, link: Path)
    | CreateNetwork(network: string)
    | ComposeUp(dir: Path)
    | ReloadNginx

  datatype Host = Host(fs: Fs, actions: seq<Action>)

  /** A deployment request. */
  datatype Deployment = Deployment(gitUrl: string, envVars: map<string, string>, port: string, projectName: string)

  /** What a successful deployment reports. */
  datatype DeploymentResult = DeploymentResult(status: string, url: string, port: string, error: string)

  /** What `git clone` does: adds the repository's files, or fails. */
  datatype CloneOutcome = Cloned(files: Fs) | CloneFailed(msg: string)

  /** The outside world's answers to the stages' system calls, and the order
      in which ranging over the environment map yields its entries. */
  datatype World = World(
    mkdir: Outcome,
    clone: CloneOutcome,
    dockerfileWrite: Outcome,
    composeWrite: Outcome,
    envEntries: seq<(string, string)>,
    network: Outcome,
    composeUp: Outcome,
    configWrite: Outcome,
    symlink: Outcome,
    reload: Outcome)

  // ---------------------------------------------------------------------
  // Paths
  // ---------------------------------------------------------------------

  const DeploymentsRoot := "/opt/deployments"

  /** `filepath.Join(dir, name)` for a `dir` without a trailing slash and a
      `name` that needs no cleaning. */
  function JoinPath(dir: string, name: string): string {
    if name == "" then dir else dir + "/" + name
  }

  /** The text of a path, as the source formats it. */
  function PathText(p: Path): string {
    match p
    case DeployDir(project) => JoinPath(DeploymentsRoot, project)
    case DeployFile(project, file) => JoinPath(JoinPath(DeploymentsRoot, project), file)
    case SiteAvailable(project) => "/etc/nginx/sites-available/" + project
    case SiteEnabled(project) => "/etc/nginx/sites-enabled/" + project
    case OtherPath(text) => text
  }

  function WorkDir(name: string): Path { DeployDir(name) }
  function DockerfilePath(name: string): Path { DeployFile(name, "Dockerfile") }
  function ComposePath(name: string): Path { DeployFile(name, "docker-compose.yml") }
  function ConfigPath(name: string): Path { SiteAvailable(name) }
  function LinkPath(name: string): Path { SiteEnabled(name) }

  /** For any project name, the five paths one deployment writes have
      pairwise different texts: the workspace, its Dockerfile and compose
      file live under `/opt/deployments`, the site and its link under two
      different nginx directories. */
  lemma {:induction false} PathTextDistinct(name: string)
    ensures var t := [PathText(WorkDir(name)), PathText(DockerfilePath(name)), PathText(ComposePath(name)),
                      PathText(ConfigPath(name)), PathText(LinkPath(name))];
            forall i, j :: 0 <= i < j < |t| ==> t[i] != t[j]
  {
    var w := PathText(WorkDir(name));
    var df := PathText(DockerfilePath(name));
    var dc := PathText(ComposePath(name));
    var a := PathText(ConfigPath(name));
    var b := PathText(LinkPath(name));
    assert a[17] == 'a' && b[17] == 'e';
    assert df[|w| + 1] == 'D' && dc[|w| + 1] == 'd';
    assert |df| > |w| && |dc| > |w|;
    assert w[1] == 'o' && df[1] == 'o' && dc[1] == 'o';
    assert a[1] == 'e' && b[1] == 'e';
  }

  /** With the empty project name the workspace is `/opt/deployments`
      itself, so its Dockerfile has the text of the workspace of a project
      named `Dockerfile`, although the two paths are different map keys. */
  lemma {:induction false} EmptyNameAliases()
    ensures PathText(DockerfilePath("")) == PathText(WorkDir("Dockerfile"))
    ensures DockerfilePath("") != WorkDir("Dockerfile")
  {
    assert JoinPath(DeploymentsRoot, "") == DeploymentsRoot;
  }

  // ---------------------------------------------------------------------
  // The stages
  // ---------------------------------------------------------------------

  /** `os.MkdirAll(workDir)`: an existing entry is kept as it is. */
  function MakeWorkspace(h: Host, workDir: Path, fault: Outcome): (r: Stepped<Host>)
    ensures r.outcome == fault
    ensures r.state.actions == h.actions + [MakeDir(workDir)]
    ensures fault.Ok? ==> workDir in r.state.fs
    ensures forall p :: p in h.fs ==> p in r.state.fs && r.state.fs[p] == h.fs[p]
  {
    var actions := h.actions + [MakeDir(workDir)];
    if fault.Err? then Stepped(Host(h.fs, actions), fault)
    else if workDir in h.fs then Stepped(Host(h.fs, actions), Ok)
    else Stepped(Host(h.fs[workDir := Dir], actions), Ok)
  }

  /** `git clone url workDir`. */
  function CloneRepository(h: Host, url: string, workDir: Path, clone: CloneOutcome): (r: Stepped<Host>)
    ensures r.outcome.Ok? <==> clone.Cloned?
    ensures clone.CloneFailed? ==> r.outcome == Err(clone.msg) && r.state.fs == h.fs
    ensures clone.Cloned? ==> r.state.fs.Keys == h.fs.Keys + clone.files.Keys
    ensures r.state.actions == h.actions + [GitClone(url, workDir)]
  {
    var actions := h.actions + [GitClone(url, workDir)];
    match clone
    case Cloned(files) => Stepped(Host(h.fs + files, actions), Ok)
    case CloneFailed(msg) => Stepped(Host(h.fs, actions), Err(msg))
  }

  /** `ensureDockerfile`: writes the Go Dockerfile only when the repository
      has none; an existing one is never touched. */
  function EnsureDockerfile(h: Host, name: string, write: Outcome): (r: Stepped<Host>)
    ensures DockerfilePath(name) in h.fs ==> r == Stepped(h, Ok)
  {
    var path := DockerfilePath(name);
    if path in h.fs then Stepped(h, Ok)
    else
      var actions := h.actions + [WriteFile(path)];
      if write.Err? then Stepped(Host(h.fs, actions), write)
      else Stepped(Host(h.fs[path := File(GoDockerfile)], actions), Ok)
  }

  /** `createDockerCompose`: (over)writes the compose file for `d`, with the
      environment entries in the order `entries` yields them. */
  function CreateDockerCompose(h: Host, d: Deployment, entries: seq<(string, string)>, write: Outcome): (r: Stepped<Host>)
    ensures r.outcome == write
    ensures r.state.actions == h.actions + [WriteFile(ComposePath(d.projectName))]
    ensures write.Err? ==> r.state.fs == h.fs
    ensures write.Ok? ==> r.state.fs.Keys == h.fs.Keys + {ComposePath(d.projectName)}
  {
    var path := ComposePath(d.projectName);
    var actions := h.actions + [WriteFile(path)];
    if write.Err? then Stepped(Host(h.fs, actions), write)
    else Stepped(Host(h.fs[path := File(ComposeYaml(d.projectName, d.port, entries))], actions), Ok)
  }

  /** `buildAndRun`: creates the shared network, ignoring whether that
      worked, then brings the service up. */
  function BuildAndRun(h: Host, name: string, network: Outcome, up: Outcome): Stepped<Host>
  {
    Stepped(Host(h.fs, h.actions + [CreateNetwork(NetworkName), ComposeUp(WorkDir(name))]), up)
  }

  /** The network command's outcome never matters: the stage's outcome is
      that of `docker-compose up`, which runs in the workspace after the
      network command, and no file changes. */
  lemma {:induction false} BuildAndRunIgnoresNetwork(h: Host, name: string, n1: Outcome, n2: Outcome, up: Outcome)
    ensures BuildAndRun(h, name, n1, up) == BuildAndRun(h, name, n2, up)
    ensures BuildAndRun(h, name, n1, up).outcome == up
    ensures BuildAndRun(h, name, n1, up).state.fs == h.fs
    ensures BuildAndRun(h, name, n1, up).state.actions == h.actions + [CreateNetwork(NetworkName), ComposeUp(WorkDir(name))]
  {
  }

  /** `configureNginx`: write the site, enable it by a symlink (always
      attempted; a link that is already there is accepted as it is), then
      reload nginx. */
  function ConfigureNginx(h: Host, d: Deployment, write: Outcome, symlink: Outcome, reload: Outcome): Stepped<Host>
  {
    var name := d.projectName;
    var config := ConfigPath(name);
    var written := h.actions + [WriteFile(config)];
    if write.Err? then Stepped(Host(h.fs, written), write)
    else
      var fs := h.fs[config := File(NginxSite(name, d.port))];
      var link := LinkPath(name);
      var linked := written + [Symlink(config, link)];
      if link in fs then
        Stepped(Host(fs, linked + [ReloadNginx]), reload)
      else
        if symlink.Err? then Stepped(Host(fs, linked), symlink)
        else Stepped(Host(fs[link := Link(config)], linked + [ReloadNginx]), reload)
  }

  /** Configuring nginx succeeds exactly when the site is written, the link
      is in place (made now, or already there) and the reload succeeds; the
      symlink is attempted right after a successful write, even when the link
      exists; the reload is attempted only once the site is written and
      linked, and it is the last thing done. */
  lemma {:induction false} ConfigureNginxOutcome(h: Host, d: Deployment, write: Outcome, symlink: Outcome, reload: Outcome)
    ensures var r := ConfigureNginx(h, d, write, symlink, reload);
            var name := d.projectName;
            && (r.outcome.Ok? <==> write.Ok? && (LinkPath(name) in h.fs || symlink.Ok?) && reload.Ok?)
            && |r.state.actions| > |h.actions|
            && r.state.actions[..|h.actions|] == h.actions
            && r.state.actions[|h.actions|] == WriteFile(ConfigPath(name))
            && (write.Ok? ==> |r.state.actions| > |h.actions| + 1
                              && r.state.actions[|h.actions| + 1] == Symlink(ConfigPath(name), LinkPath(name)))
            && (ReloadNginx in r.state.actions[|h.actions|..] <==> write.Ok? && (LinkPath(name) in h.fs || symlink.Ok?))
            && (r.outcome.Ok? ==> r.state.actions[|r.state.actions| - 1] == ReloadNginx)
            && (write.Err? ==> r.state.fs == h.fs)
            && (write.Ok? ==> r.state.fs[ConfigPath(name)] == File(NginxSite(name, d.port)))
            && (write.Err? ==> r.outcome == write)
            && (write.Err? ==> r.state.actions == h.actions + [WriteFile(ConfigPath(name))])
            && (write.Ok? && LinkPath(name) !in h.fs && symlink.Err? ==> r.outcome == symlink)
            && (write.Ok? && (LinkPath(name) in h.fs || symlink.Ok?) ==> r.outcome == reload)
  {
    var name := d.projectName;
    var r := ConfigureNginx(h, d, write, symlink, reload);
    var written := h.actions + [WriteFile(ConfigPath(name))];
    assert written[|h.actions|..] == [WriteFile(ConfigPath(name))];
    var linked := written + [Symlink(ConfigPath(name), LinkPath(name))];
    assert linked[|h.actions|..] == [WriteFile(ConfigPath(name)), Symlink(ConfigPath(name), LinkPath(name))];
    assert (linked + [ReloadNginx])[|h.actions|..] == [WriteFile(ConfigPath(name)), Symlink(ConfigPath(name), LinkPath(name)), ReloadNginx];
    assert LinkPath(name) in h.fs[ConfigPath(name) := File(NginxSite(name, d.port))] <==> LinkPath(name) in h.fs;
  }

  /** A successful nginx stage leaves the site written and linked, and
      changes no other file. */
  lemma {:induction false} ConfigureNginxFiles(h: Host, d: Deployment, write: Outcome, symlink: Outcome, reload: Outcome)
    requires ConfigureNginx(h, d, write, symlink, reload).outcome.Ok?
    ensures var fs := ConfigureNginx(h, d, write, symlink, reload).state.fs;
            var name := d.projectName;
            && ConfigPath(name) in fs && fs[ConfigPath(name)] == File(NginxSite(name, d.port))
            && LinkPath(name) in fs
            && (forall p :: p in h.fs ==> p in fs)
            && (forall p :: p in h.fs && p != ConfigPath(name) ==> fs[p] == h.fs[p])
            && fs.Keys <= h.fs.Keys + {ConfigPath(name), LinkPath(name)}
  {
    assert write.Ok?;
    if LinkPath(d.projectName) !in h.fs {
      assert symlink.Ok?;
    }
  }

  /** A Dockerfile the repository brings is kept; otherwise the Go fallback
      is written, and nothing else changes. */
  lemma {:induction false} EnsureDockerfileContent(h: Host, name: string, write: Outcome)
    ensures var r := EnsureDockerfile(h, name, write);
            && (r.outcome.Ok? <==> DockerfilePath(name) in h.fs || write.Ok?)
            && (r.outcome.Ok? ==> DockerfilePath(name) in r.state.fs)
            && (DockerfilePath(name) !in h.fs && write.Ok? ==> r.state.fs == h.fs[DockerfilePath(name) := File(GoDockerfile)])
            && (r.outcome.Err? ==> r.state.fs == h.fs)
  {
  }

  /** Ensuring the Dockerfile twice is ensuring it once: the second call finds
      the file the first one wrote and does nothing. */
  lemma {:induction false} EnsureDockerfileIdempotent(h: Host, name: string, w1: Outcome, w2: Outcome)
    requires EnsureDockerfile(h, name, w1).outcome.Ok?
    ensures var once := EnsureDockerfile(h, name, w1);
            EnsureDockerfile(once.state, name, w2) == once
  {
  }

  /** Writing the compose file replaces whatever was there: its content
      afterwards depends only on the request and the entry order, every
      other file is kept, and when `entries` is an order in which ranging
      over the request's `EnvVars` yields them, the environment block has
      one line per variable, each variable's `key=value` line among them. */
  lemma {:induction false} ComposeOverwrites(h1: Host, h2: Host, d: Deployment, entries: seq<(string, string)>)
    ensures var r1 := CreateDockerCompose(h1, d, entries, Ok);
            var r2 := CreateDockerCompose(h2, d, entries, Ok);
            && r1.state.fs[ComposePath(d.projectName)] == r2.state.fs[ComposePath(d.projectName)]
            && r1.state.fs[ComposePath(d.projectName)] == File(ComposeYaml(d.projectName, d.port, entries))
            && (forall p :: p in h1.fs && p != ComposePath(d.projectName) ==> p in r1.state.fs && r1.state.fs[p] == h1.fs[p])
    ensures IsIterationOrder(entries, d.envVars) ==> CarriesEnv(entries, d.envVars)
  {
    if IsIterationOrder(entries, d.envVars) {
      EnvBlockEntries(d.envVars, entries);
    }
  }

  // ---------------------------------------------------------------------
  // DeployProject
  // ---------------------------------------------------------------------

  /** The six stages, in the order `DeployProject` performs them. */
  datatype Stage = Workspace | Clone | Dockerfile | Compose | BuildRun | Nginx

  const Stages := [Workspace, Clone, Dockerfile, Compose, BuildRun, Nginx]

  /** The text put in front of a stage's error. */
  function StagePrefix(stage: Stage): string {
    match stage
    case Workspace => "failed to create workspace: "
    case Clone => "failed to clone repository: "
    case Dockerfile => "failed to create Dockerfile: "
    case Compose => "failed to create docker-compose.yml: "
    case BuildRun => "failed to build and run: "
    case Nginx => "failed to configure nginx: "
  }

  function StageEffect(d: Deployment, w: World, stage: Stage, h: Host): Stepped<Host> {
    var name := d.projectName;
    match stage
    case Workspace => MakeWorkspace(h, WorkDir(name), w.mkdir)
    case Clone => CloneRepository(h, d.gitUrl, WorkDir(name), w.clone)
    case Dockerfile => EnsureDockerfile(h, name, w.dockerfileWrite)
    case Compose => CreateDockerCompose(h, d, w.envEntries, w.composeWrite)
    case BuildRun => BuildAndRun(h, name, w.network, w.composeUp)
    case Nginx => ConfigureNginx(h, d, w.configWrite, w.symlink, w.reload)
  }

  /** One stage, its error wrapped with the stage's prefix. */
  function StageStep(d: Deployment, w: World, stage: Stage, h: Host): Stepped<Host> {
    var e := StageEffect(d, w, stage, h);
    Stepped(e.state, Wrap(StagePrefix(stage), e.outcome))
  }

  function Pipeline(d: Deployment, w: World): (Stage, Host) -> Stepped<Host> {
    (stage, h) => StageStep(d, w, stage, h)
  }

  /** The reply of `DeployProject`: the host it leaves behind and either the
      result or the error. */
  datatype Deploy = Deploy(host: Host, result: Result<DeploymentResult>)

  function Succeeded(d: Deployment): DeploymentResult {
    DeploymentResult("success", "http://" + d.projectName + ".localhost", d.port, "")
  }

  /** `DeployProject`: the stages run to the first failure; success reports
      the project's local URL and its port. */
  function DeployProject(d: Deployment, h: Host, w: World): Deploy {
    var r := RunAll(Stages, h, Pipeline(d, w));
    Deploy(r.state, if r.outcome.Ok? then Success(Succeeded(d)) else Failure(r.outcome.msg))
  }

  /** The stages from `k` on. */
  function RunFrom(d: Deployment, w: World, k: nat, h: Host): Run<Host>
    requires k <= |Stages|
  {
    RunAll(Stages[k..], h, Pipeline(d, w))
  }

  /** Running the stages from `k` on is running stage `k`, then the rest
      only if it succeeded. */
  lemma {:induction false} RunFromUnfold(d: Deployment, w: World, k: nat, h: Host)
    requires k < |Stages|
    ensures var e := StageStep(d, w, Stages[k], h);
            var rest := RunFrom(d, w, k + 1, e.state);
            RunFrom(d, w, k, h)
              == if e.outcome.Err? then Run(e.state, 1, e.outcome) else Run(rest.state, rest.ran + 1, rest.outcome)
  {
    assert Stages[k..][0] == Stages[k];
    assert Stages[k..][1..] == Stages[k + 1..];
  }

  /** A failed deployment failed in exactly one stage: every stage before it
      succeeded, none after it ran, and the error is that stage's prefix
      followed by the stage's own error. */
  lemma {:induction false} DeployFirstFailure(d: Deployment, h: Host, w: World)
    requires DeployProject(d, h, w).result.Failure?
    ensures var f := Pipeline(d, w);
            var r := RunAll(Stages, h, f);
            var before := RunAll(Stages[..r.ran - 1], h, f);
            var e := StageEffect(d, w, Stages[r.ran - 1], before.state);
            && 1 <= r.ran <= |Stages|
            && before.outcome.Ok?
            && e.outcome.Err?
            && DeployProject(d, h, w) == Deploy(e.state, Failure(StagePrefix(Stages[r.ran - 1]) + e.outcome.msg))
  {
    RunAllFailure(Stages, h, Pipeline(d, w));
  }

  // ---------------------------------------------------------------------
  // What a deployment leaves behind
  // ---------------------------------------------------------------------

  /** The filesystem once the workspace exists and the repository is cloned. */
  function ClonedFs(d: Deployment, h: Host, files: Fs): Fs {
    var w := WorkDir(d.projectName);
    (if w in h.fs then h.fs else h.fs[w := Dir]) + files
  }

  /** When a deployment succeeds, stated on the world's answers alone. */
  ghost predicate DeploySucceeds(d: Deployment, h: Host, w: World) {
    var name := d.projectName;
    && w.mkdir.Ok?
    && w.clone.Cloned?
    && (DockerfilePath(name) in ClonedFs(d, h, w.clone.files) || w.dockerfileWrite.Ok?)
    && w.composeWrite.Ok?
    && w.composeUp.Ok?
    && w.configWrite.Ok?
    && (LinkPath(name) in ClonedFs(d, h, w.clone.files) || w.symlink.Ok?)
    && w.reload.Ok?
  }

  /** The build and the nginx stages, from host `h`. */
  lemma {:induction false} FinalStagesSucceed(d: Deployment, w: World, h: Host)
    ensures var ready := && w.composeUp.Ok? && w.configWrite.Ok?
                         && (LinkPath(d.projectName) in h.fs || w.symlink.Ok?) && w.reload.Ok?;
            RunFrom(d, w, 4, h).outcome.Ok? <==> ready
  {
    RunFromUnfold(d, w, 4, h);
    var e5 := StageStep(d, w, BuildRun, h);
    if e5.outcome.Ok? {
      RunFromUnfold(d, w, 5, e5.state);
      ConfigureNginxOutcome(e5.state, d, w.configWrite, w.symlink, w.reload);
      assert Stages[6..] == [];
    }
  }

  /** The stages from the Dockerfile on, from the cloned host `h`. */
  lemma {:induction false} LaterStagesSucceed(d: Deployment, w: World, h: Host)
    ensures var name := d.projectName;
            var ready := && (DockerfilePath(name) in h.fs || w.dockerfileWrite.Ok?)
                         && w.composeWrite.Ok? && w.composeUp.Ok? && w.configWrite.Ok?
                         && (LinkPath(name) in h.fs || w.symlink.Ok?) && w.reload.Ok?;
            RunFrom(d, w, 2, h).outcome.Ok? <==> ready
  {
    var name := d.projectName;
    RunFromUnfold(d, w, 2, h);
    var e3 := StageStep(d, w, Dockerfile, h);
    EnsureDockerfileContent(h, name, w.dockerfileWrite);
    if e3.outcome.Ok? {
      RunFromUnfold(d, w, 3, e3.state);
      var e4 := StageStep(d, w, Compose, e3.state);
      if e4.outcome.Ok? {
        assert LinkPath(name) in e4.state.fs <==> LinkPath(name) in h.fs;
        FinalStagesSucceed(d, w, e4.state);
      }
    }
  }

  /** A deployment succeeds exactly when every system call it depends on
      does: the workspace, the clone, the Dockerfile (unless the repository
      brings one), the compose file, `docker-compose up`, the site file, the
      symlink (unless one is already there) and the reload. Creating the
      network is not among them. */
  lemma {:induction false} DeploySucceedsIff(d: Deployment, h: Host, w: World)
    ensures DeployProject(d, h, w).result.Success? <==> DeploySucceeds(d, h, w)
    ensures DeployProject(d, h, w).result.Success? ==> DeployProject(d, h, w).result.value == Succeeded(d)
  {
    assert Stages[0..] == Stages;
    RunFromUnfold(d, w, 0, h);
    var e1 := StageStep(d, w, Workspace, h);
    if e1.outcome.Ok? {
      RunFromUnfold(d, w, 1, e1.state);
      var e2 := StageStep(d, w, Clone, e1.state);
      if e2.outcome.Ok? {
        assert e2.state.fs == ClonedFs(d, h, w.clone.files);
        LaterStagesSucceed(d, w, e2.state);
      }
    }
  }

  // ---------------------------------------------------------------------
  // The files a deployment leaves behind
  // ---------------------------------------------------------------------

  /** Whether a path belongs to project `name`: its workspace, a file in
      it, its nginx site or the site's link. */
  predicate InProject(p: Path, name: string) {
    match p
    case DeployDir(project) => project == name
    case DeployFile(project, _) => project == name
    case SiteAvailable(project) => project == name
    case SiteEnabled(project) => project == name
    case OtherPath(_) => false
  }

  /** `git clone` creates files only inside the workspace of `d`. */
  ghost predicate ClonesIntoWorkspace(d: Deployment, w: World) {
    w.clone.Cloned? ==> forall p :: p in w.clone.files ==> p.DeployFile? && p.project == d.projectName
  }

  /** Whether `fs` holds any file inside the workspace of project `name`. */
  ghost predicate WorkspaceHoldsFiles(fs: Fs, name: string) {
    exists file :: DeployFile(name, file) in fs
  }

  /** The answers a real host gives to a deployment of `d` from host `h`:
      ranging over the request's `EnvVars` yields each entry exactly once,
      `git clone` creates files only inside the workspace, and it refuses a
      workspace that already holds files. */
  ghost predicate ValidWorld(d: Deployment, h: Host, w: World) {
    && IsIterationOrder(w.envEntries, d.envVars)
    && ClonesIntoWorkspace(d, w)
    && (WorkspaceHoldsFiles(h.fs, d.projectName) ==> w.clone.CloneFailed?)
  }

  /** What a successful deployment leaves on the host: the workspace with a
      Dockerfile (the repository's or the fallback), the compose file
      rendered for the request with the environment in the order the map
      was ranged over, the nginx site and its link. When the clone stays in
      the workspace, nothing outside the project changes: every path outside
      it keeps its entry, and no path outside it appears. */
  lemma {:induction false} DeployLeavesFiles(d: Deployment, h: Host, w: World)
    requires DeployProject(d, h, w).result.Success?
    ensures var fs := DeployProject(d, h, w).host.fs;
            var name := d.projectName;
            && WorkDir(name) in fs
            && DockerfilePath(name) in fs
            && ComposePath(name) in fs && fs[ComposePath(name)] == File(ComposeYaml(name, d.port, w.envEntries))
            && ConfigPath(name) in fs && fs[ConfigPath(name)] == File(NginxSite(name, d.port))
            && LinkPath(name) in fs
            && (ClonesIntoWorkspace(d, w) ==>
                  forall p :: p in h.fs && !InProject(p, name) ==> p in fs && fs[p] == h.fs[p])
            && (ClonesIntoWorkspace(d, w) ==>
                  forall p :: p in fs && !InProject(p, name) ==> p in h.fs)
  {
    var name := d.projectName;
    assert Stages[0..] == Stages;
    RunFromUnfold(d, w, 0, h);
    var e1 := StageStep(d, w, Workspace, h);
    assert e1.outcome.Ok?;
    RunFromUnfold(d, w, 1, e1.state);
    var e2 := StageStep(d, w, Clone, e1.state);
    assert e2.outcome.Ok?;
    assert RunFrom(d, w, 2, e2.state).state == DeployProject(d, h, w).host;
    assert RunFrom(d, w, 2, e2.state).outcome.Ok?;
    var fs2 := e2.state.fs;
    assert fs2 == ClonedFs(d, h, w.clone.files);
    assert WorkDir(name) in fs2;
    DeployLaterFiles(d, w, e2.state);
    if ClonesIntoWorkspace(d, w) {
      ClonedFsFrame(d, h, w);
      OutsideProjectFrame(h.fs, fs2, DeployProject(d, h, w).host.fs, name);
    }
  }

  /** The texts a successful deployment leaves behind: the compose file
      publishes the requested port on the container's 8080 and builds the
      project's service, and the nginx site answers for
      `<project>.localhost` by proxying to that port. */
  lemma {:induction false} DeployedTexts(d: Deployment, h: Host, w: World)
    requires DeployProject(d, h, w).result.Success?
    ensures var fs := DeployProject(d, h, w).host.fs;
            var name := d.projectName;
            && ComposePath(name) in fs && fs[ComposePath(name)].File?
            && Contains(Render(fs[ComposePath(name)].content), "      - \"" + d.port + ":" + InternalPort + "\"\n")
            && Contains(Render(fs[ComposePath(name)].content), "  " + name + ":\n    build: .\n")
            && ConfigPath(name) in fs && fs[ConfigPath(name)].File?
            && Contains(Render(fs[ConfigPath(name)].content), "    listen 80;\n    server_name " + name + ".localhost;\n")
            && Contains(Render(fs[ConfigPath(name)].content), "        proxy_pass http://localhost:" + d.port + ";\n")
  {
    DeployLeavesFiles(d, h, w);
    RenderedTexts(DeployProject(d, h, w).host.fs, d, w.envEntries);
  }

  /** What the rendered compose file and nginx site of deployment `d` say. */
  lemma {:induction false} RenderedTexts(fs: Fs, d: Deployment, entries: seq<(string, string)>)
    requires ComposePath(d.projectName) in fs && fs[ComposePath(d.projectName)] == File(ComposeYaml(d.projectName, d.port, entries))
    requires ConfigPath(d.projectName) in fs && fs[ConfigPath(d.projectName)] == File(NginxSite(d.projectName, d.port))
    ensures var name := d.projectName;
            && Contains(Render(fs[ComposePath(name)].content), "      - \"" + d.port + ":" + InternalPort + "\"\n")
            && Contains(Render(fs[ComposePath(name)].content), "  " + name + ":\n    build: .\n")
            && Contains(Render(fs[ConfigPath(name)].content), "    listen 80;\n    server_name " + name + ".localhost;\n")
            && Contains(Render(fs[ConfigPath(name)].content), "        proxy_pass http://localhost:" + d.port + ";\n")
  {
    ComposeFileContents(d.projectName, d.port, EnvBlock(entries));
    NginxConfigContents(d.projectName, d.port);
  }

  /** A clone that stays in the workspace changes nothing outside the project. */
  lemma {:induction false} ClonedFsFrame(d: Deployment, h: Host, w: World)
    requires w.clone.Cloned? && ClonesIntoWorkspace(d, w)
    ensures var fs := ClonedFs(d, h, w.clone.files);
            && (forall p :: p in h.fs && !InProject(p, d.projectName) ==> p in fs && fs[p] == h.fs[p])
            && (forall p :: p in fs && !InProject(p, d.projectName) ==> p in h.fs)
  {
  }

  /** Two steps that each keep the paths outside project `name` compose into
      one that does, when the second only adds the project's own files. */
  lemma {:induction false} OutsideProjectFrame(before: Fs, mid: Fs, after: Fs, name: string)
    requires forall p :: p in before && !InProject(p, name) ==> p in mid && mid[p] == before[p]
    requires forall p :: p in mid && !InProject(p, name) ==> p in before
    requires forall p :: p in mid ==> p in after
    requires forall p :: p in mid && !InProject(p, name) ==> after[p] == mid[p]
    requires after.Keys <= mid.Keys + {DockerfilePath(name), ComposePath(name), ConfigPath(name), LinkPath(name)}
    ensures forall p :: p in before && !InProject(p, name) ==> p in after && after[p] == before[p]
    ensures forall p :: p in after && !InProject(p, name) ==> p in before
  {
  }

  /** The stages from the Dockerfile on, once they all succeed from the
      cloned host `h`. */
  lemma {:induction false} DeployLaterFiles(d: Deployment, w: World, h: Host)
    requires RunFrom(d, w, 2, h).outcome.Ok?
    ensures var fs := RunFrom(d, w, 2, h).state.fs;
            var name := d.projectName;
            && DockerfilePath(name) in fs
            && ComposePath(name) in fs && fs[ComposePath(name)] == File(ComposeYaml(name, d.port, w.envEntries))
            && ConfigPath(name) in fs && fs[ConfigPath(name)] == File(NginxSite(name, d.port))
            && LinkPath(name) in fs
            && (forall p :: p in h.fs ==> p in fs)
            && (forall p :: p in h.fs && !InProject(p, name) ==> fs[p] == h.fs[p])
            && fs.Keys <= h.fs.Keys + {DockerfilePath(name), ComposePath(name), ConfigPath(name), LinkPath(name)}
  {
    var name := d.projectName;
    RunFromUnfold(d, w, 2, h);
    var e3 := StageStep(d, w, Dockerfile, h);
    assert e3.outcome.Ok?;
    RunFromUnfold(d, w, 3, e3.state);
    var e4 := StageStep(d, w, Compose, e3.state);
    assert e4.outcome.Ok?;
    assert RunFrom(d, w, 4, e4.state).state == RunFrom(d, w, 2, h).state;
    assert RunFrom(d, w, 4, e4.state).outcome.Ok?;
    DockerfileComposeFiles(d, w, h);
    FinalStagesFiles(d, w, e4.state);
    LaterFilesFrame(h.fs, e4.state.fs, RunFrom(d, w, 2, h).state.fs, name);
  }

  /** The paths the later stages keep and add, composed over the Dockerfile
      and compose stages (`before` to `mid`) and the nginx stage (`mid` to
      `after`). */
  lemma {:induction false} LaterFilesFrame(before: Fs, mid: Fs, after: Fs, name: string)
    requires forall p :: p in before ==> p in mid
    requires forall p :: p in before && p != DockerfilePath(name) && p != ComposePath(name) ==> mid[p] == before[p]
    requires mid.Keys <= before.Keys + {DockerfilePath(name), ComposePath(name)}
    requires forall p :: p in mid ==> p in after
    requires forall p :: p in mid && p != ConfigPath(name) ==> after[p] == mid[p]
    requires after.Keys <= mid.Keys + {ConfigPath(name), LinkPath(name)}
    ensures forall p :: p in before ==> p in after
    ensures forall p :: p in before && !InProject(p, name) ==> after[p] == before[p]
    ensures after.Keys <= before.Keys + {DockerfilePath(name), ComposePath(name), ConfigPath(name), LinkPath(name)}
  {
  }

  /** The Dockerfile and compose stages, once both succeed from host `h`:
      both files are in place, and only they may be new or changed. */
  lemma {:induction false} DockerfileComposeFiles(d: Deployment, w: World, h: Host)
    requires StageStep(d, w, Dockerfile, h).outcome.Ok?
    requires StageStep(d, w, Compose, StageStep(d, w, Dockerfile, h).state).outcome.Ok?
    ensures var fs := StageStep(d, w, Compose, StageStep(d, w, Dockerfile, h).state).state.fs;
            var name := d.projectName;
            && DockerfilePath(name) in fs
            && ComposePath(name) in fs && fs[ComposePath(name)] == File(ComposeYaml(name, d.port, w.envEntries))
            && (forall p :: p in h.fs ==> p in fs)
            && (forall p :: p in h.fs && p != DockerfilePath(name) && p != ComposePath(name) ==> fs[p] == h.fs[p])
            && fs.Keys <= h.fs.Keys + {DockerfilePath(name), ComposePath(name)}
  {
    var name := d.projectName;
    var e3 := StageStep(d, w, Dockerfile, h);
    EnsureDockerfileContent(h, name, w.dockerfileWrite);
    assert e3.state.fs.Keys <= h.fs.Keys + {DockerfilePath(name)};
    assert forall p :: p in h.fs && p != DockerfilePath(name) ==> p in e3.state.fs && e3.state.fs[p] == h.fs[p];
    assert DockerfilePath(name) in e3.state.fs;
  }

  /** The build and the nginx stages, once both succeed from host `h`: the
      site is written and linked, and no other file changes. */
  lemma {:induction false} FinalStagesFiles(d: Deployment, w: World, h: Host)
    requires RunFrom(d, w, 4, h).outcome.Ok?
    ensures var fs := RunFrom(d, w, 4, h).state.fs;
            var name := d.projectName;
            && ConfigPath(name) in fs && fs[ConfigPath(name)] == File(NginxSite(name, d.port))
            && LinkPath(name) in fs
            && (forall p :: p in h.fs ==> p in fs)
            && (forall p :: p in h.fs && p != ConfigPath(name) ==> fs[p] == h.fs[p])
            && fs.Keys <= h.fs.Keys + {ConfigPath(name), LinkPath(name)}
  {
    RunFromUnfold(d, w, 4, h);
    var e5 := StageStep(d, w, BuildRun, h);
    assert e5.state.fs == h.fs;
    RunFromUnfold(d, w, 5, e5.state);
    var e6 := StageEffect(d, w, Nginx, e5.state);
    assert e6.outcome.Ok?;
    ConfigureNginxFiles(e5.state, d, w.configWrite, w.symlink, w.reload);
    assert Stages[6..] == [];
  }

  /** The compose file of a successful deployment carries the request's
      environment variables: one line per variable, each with its value,
      and no other line. */
  lemma {:induction false} DeployCarriesEnv(d: Deployment, h: Host, w: World)
    requires DeployProject(d, h, w).result.Success?
    requires IsIterationOrder(w.envEntries, d.envVars)
    ensures var fs := DeployProject(d, h, w).host.fs;
            && ComposePath(d.projectName) in fs
            && fs[ComposePath(d.projectName)] == File(ComposeYaml(d.projectName, d.port, w.envEntries))
            && CarriesEnv(w.envEntries, d.envVars)
  {
    DeployLeavesFiles(d, h, w);
    EnvBlockEntries(d.envVars, w.envEntries);
  }

  /** A deployment into a workspace that already holds files fails: `git
      clone` refuses a non-empty destination, so the deployment stops at the
      workspace or at the clone. */
  lemma {:induction false} DeployIntoOccupiedWorkspace(d: Deployment, h: Host, w: World)
    requires ValidWorld(d, h, w) && WorkspaceHoldsFiles(h.fs, d.projectName)
    ensures DeployProject(d, h, w).result.Failure?
    ensures w.mkdir.Ok? ==> DeployProject(d, h, w).result.error == "failed to clone repository: " + w.clone.msg
  {
    if w.mkdir.Err? {
      assert Stages[0..] == Stages;
      RunFromUnfold(d, w, 0, h);
    } else {
      DeployCloneFailure(d, h, w);
    }
  }

  /** A project deployed once cannot be deployed again onto the host it left
      behind: its workspace now holds its Dockerfile, so the second
      deployment fails at the workspace or at the clone. */
  lemma {:induction false} RedeployFails(d: Deployment, h: Host, w: World, w2: World)
    requires DeployProject(d, h, w).result.Success?
    requires ValidWorld(d, DeployProject(d, h, w).host, w2)
    ensures DeployProject(d, DeployProject(d, h, w).host, w2).result.Failure?
  {
    var h2 := DeployProject(d, h, w).host;
    DeployLeavesFiles(d, h, w);
    assert DeployFile(d.projectName, "Dockerfile") in h2.fs;
    DeployIntoOccupiedWorkspace(d, h2, w2);
  }

  /** A failed clone ends the deployment right there: no Dockerfile, compose
      file, container or nginx site is produced, whatever the later answers
      would have been. */
  lemma {:induction false} DeployCloneFailure(d: Deployment, h: Host, w: World)
    requires w.mkdir.Ok? && w.clone.CloneFailed?
    ensures var workDir := WorkDir(d.projectName);
            DeployProject(d, h, w)
              == Deploy(Host(if workDir in h.fs then h.fs else h.fs[workDir := Dir],
                             h.actions + [MakeDir(workDir), GitClone(d.gitUrl, workDir)]),
                        Failure("failed to clone repository: " + w.clone.msg))
  {
    assert Stages[0..] == Stages;
    RunFromUnfold(d, w, 0, h);
    RunFromUnfold(d, w, 1, StageStep(d, w, Workspace, h).state);
  }

  /** The worked example: project `widgets` on port 3000, deployed on an
      empty host where every call succeeds and the repository brings no
      Dockerfile, reports `http://widgets.localhost` on port 3000. */
  lemma {:induction false} WidgetsDeployment(d: Deployment, h: Host, w: World)
    requires d.projectName == "widgets" && d.port == "3000"
    requires h.fs == map[] && w.clone == Cloned(map[])
    requires w.mkdir.Ok? && w.dockerfileWrite.Ok? && w.composeWrite.Ok? && w.composeUp.Ok?
    requires w.configWrite.Ok? && w.symlink.Ok? && w.reload.Ok?
    ensures DeployProject(d, h, w).result
              == Success(DeploymentResult("success", "http://widgets.localhost", "3000", ""))
  {
    assert DeploySucceeds(d, h, w);
    DeploySucceedsIff(d, h, w);
    WidgetsUrl();
  }

  lemma {:induction false} WidgetsUrl()
    ensures "http://" + "widgets" + ".localhost" == "http://widgets.localhost"
  {
    var u := "http://" + "widgets" + ".localhost";
    assert |u| == 24;
    assert forall i :: 0 <= i < 24 ==> u[i] == "http://widgets.localhost"[i];
  }
}

=== FILE: handler.dfy ===
/** `deploymentHandler` (main.go): checks the method and the request body,
    fills in the defaults, and hands the request to `DeployProject`. JSON
    decoding is abstracted: the body is either a decoded `Deployment` or
    `None` when decoding failed. */
module Handler {
  import opened Outcomes
  import opened Text
  import opened Templates
  import opened Deployer

  const DefaultPort := "3000"

  /** What the handler writes back. `http.Error` ends its text with a newline. */
  datatype Response = HttpError(status: nat, body: string) | Json(result: DeploymentResult)

  /** What one request did: the response, the request it passed to
      `DeployProject` (if it got that far), and the host afterwards. */
  datatype Handled = Handled(response: Response, deployed: Option<Deployment>, host: Host)

  function ErrorResponse(status: nat, message: string): Response {
    HttpError(status, message + "\n")
  }

  /** The project name derived from a repository URL: the text after the last
      `/`, with one trailing `.git` removed. */
  function DeriveProjectName(gitUrl: string): (name: string)
    ensures '/' !in name
  {
    var segment := LastSegment(gitUrl);
    var name := TrimSuffix(segment, ".git");
    assert forall i :: 0 <= i < |name| ==> name[i] == segment[i];
    name
  }

  /** The request with its defaults filled in. */
  function Normalize(d: Deployment): Deployment {
    var port := if d.port == "" then DefaultPort else d.port;
    var name := if d.projectName == "" then DeriveProjectName(d.gitUrl) else d.projectName;
    Deployment(d.gitUrl, d.envVars, port, name)
  }

  function Handle(verb: string, body: Option<Deployment>, h: Host, w: World): Handled {
    if verb != "POST" then Handled(ErrorResponse(405, "Method not allowed"), None, h)
    else if body.None? then Handled(ErrorResponse(400, "Error parsing JSON"), None, h)
    else if body.value.gitUrl == "" then Handled(ErrorResponse(400, "git_url is required"), None, h)
    else
      var d := Normalize(body.value);
      var r := DeployProject(d, h, w);
      match r.result
      case Failure(e) => Handled(ErrorResponse(500, e), Some(d), r.host)
      case Success(result) => Handled(Json(result), Some(d), r.host)
  }

  // ---------------------------------------------------------------------
  // Project names
  // ---------------------------------------------------------------------

  /** The derived name is the last `/`-separated segment of the URL, with
      exactly one `.git` taken off when it ends in one. */
  lemma {:induction false} DeriveProjectNameIsLastSegment(gitUrl: string)
    ensures var name := DeriveProjectName(gitUrl);
            exists segment :: IsLastSegment(gitUrl, segment)
                              && (if HasSuffix(segment, ".git") then name + ".git" == segment else name == segment)
  {
    LastSegmentIsLast(gitUrl);
  }

  /** A URL ending in `<segment>` after a `/` names the project `<segment>`
      minus one `.git`. */
  lemma {:induction false} DeriveFromLastSegment(base: string, segment: string)
    requires '/' !in segment
    ensures DeriveProjectName(base + "/" + segment) == TrimSuffix(segment, ".git")
  {
    var s := base + "/" + segment;
    assert s[|s| - |segment|..] == segment;
    assert s[|s| - |segment| - 1] == '/';
    LastSegmentOf(s, segment);
  }

  /** `.../org/<p>.git` names the project `<p>`; in particular only one
      suffix is stripped, so `x.git.git` names `x.git`. */
  lemma {:induction false} DeriveStripsOneGit(base: string, p: string)
    requires '/' !in p
    ensures DeriveProjectName(base + "/" + p + ".git") == p
  {
    assert '/' !in p + ".git";
    assert base + "/" + p + ".git" == base + "/" + (p + ".git");
    DeriveFromLastSegment(base, p + ".git");
    assert (p + ".git")[|p|..] == ".git";
  }

  /** A URL without any `/` is its own last segment. */
  lemma {:induction false} DeriveWithoutSlash(gitUrl: string)
    requires '/' !in gitUrl
    ensures DeriveProjectName(gitUrl) == TrimSuffix(gitUrl, ".git")
  {
    assert gitUrl[|gitUrl| - |gitUrl|..] == gitUrl;
    LastSegmentOf(gitUrl, gitUrl);
  }

  /** A URL ending in `/` derives the empty name. */
  lemma {:induction false} DeriveTrailingSlash(base: string)
    ensures DeriveProjectName(base + "/") == ""
  {
    DeriveFromLastSegment(base, "");
    assert base + "/" + "" == base + "/";
  }

  /** A worked example. */
  lemma {:induction false} DeriveExample()
    ensures DeriveProjectName("https://example.com/org/app.git") == "app"
  {
    DeriveStripsOneGit("https://example.com/org", "app");
    assert "https://example.com/org" + "/" + "app" + ".git" == "https://example.com/org/app.git";
  }

  // ---------------------------------------------------------------------
  // Defaults
  // ---------------------------------------------------------------------

  /** Defaults fill only what is empty: an empty port becomes `3000`, an empty
      project name is derived from the URL, and everything given is kept. */
  lemma {:induction false} NormalizeDefaults(d: Deployment)
    ensures var n := Normalize(d);
            && n.gitUrl == d.gitUrl && n.envVars == d.envVars
            && (d.port != "" ==> n.port == d.port)
            && (d.port == "" ==> n.port == DefaultPort)
            && (d.projectName != "" ==> n.projectName == d.projectName)
            && (d.projectName == "" ==> n.projectName == DeriveProjectName(d.gitUrl))
            && n.port != ""
  {
  }

  /** Filling in the defaults twice is filling them in once. */
  lemma {:induction false} NormalizeIdempotent(d: Deployment)
    ensures Normalize(Normalize(d)) == Normalize(d)
  {
  }

  // ---------------------------------------------------------------------
  // The handler
  // ---------------------------------------------------------------------

  /** Anything but POST is refused with 405 before the body is looked at,
      and nothing is deployed. */
  lemma {:induction false} HandleRejectsMethod(verb: string, body: Option<Deployment>, h: Host, w: World)
    requires verb != "POST"
    ensures Handle(verb, body, h, w) == Handled(HttpError(405, "Method not allowed" + "\n"), None, h)
  {
  }

  /** A body that does not decode, or one without `git_url`, is refused with
      400 and nothing is deployed. */
  lemma {:induction false} HandleRejectsBody(body: Option<Deployment>, h: Host, w: World)
    requires body.None? || body.value.gitUrl == ""
    ensures var r := Handle("POST", body, h, w);
            && r.response.HttpError? && r.response.status == 400
            && r.deployed.None? && r.host == h
  {
  }

  /** A valid request is deployed with its defaults filled in; the reply is
      the result as JSON exactly when the deployment succeeds, and otherwise a
      500 carrying the stage-tagged error. */
  lemma {:induction false} HandleDeploys(d: Deployment, h: Host, w: World)
    requires d.gitUrl != ""
    ensures var r := Handle("POST", Some(d), h, w);
            var n := Normalize(d);
            && r.deployed == Some(n)
            && r.host == DeployProject(n, h, w).host
            && (r.response.Json? <==> DeploySucceeds(n, h, w))
            && (r.response.Json? ==> r.response.result == DeploymentResult("success", "http://" + n.projectName + ".localhost", n.port, ""))
            && (r.response.HttpError? ==>
                  r.response.status == 500 && r.response.body == DeployProject(n, h, w).result.error + "\n")
  {
    DeploySucceedsIff(Normalize(d), h, w);
  }

  /** The handler does not reject the empty name a URL ending in `/`
      derives: such a request is deployed as project `""`, whose workspace
      is `/opt/deployments` itself. */
  lemma {:induction false} HandleDeploysEmptyName(base: string, env: map<string, string>, port: string, h: Host, w: World)
    ensures var r := Handle("POST", Some(Deployment(base + "/", env, port, "")), h, w);
            && r.deployed == Some(Deployment(base + "/", env, if port == "" then DefaultPort else port, ""))
            && r.host == DeployProject(r.deployed.value, h, w).host
  {
    DeriveTrailingSlash(base);
  }

  /** The request's `env_vars` reach the compose file: when the handler
      answers with the result, the deployed compose file has one environment
      line per variable of the request, each with its value, and no other. */
  lemma {:induction false} HandleCarriesEnv(d: Deployment, h: Host, w: World)
    requires d.gitUrl != ""
    requires IsIterationOrder(w.envEntries, d.envVars)
    requires Handle("POST", Some(d), h, w).response.Json?
    ensures var r := Handle("POST", Some(d), h, w);
            var n := Normalize(d);
            && ComposePath(n.projectName) in r.host.fs
            && r.host.fs[ComposePath(n.projectName)] == File(ComposeYaml(n.projectName, n.port, w.envEntries))
            && CarriesEnv(w.envEntries, d.envVars)
  {
    var n := Normalize(d);
    assert DeployProject(n, h, w).result.Success?;
    DeployCarriesEnv(n, h, w);
  }
}

=== FILE: installer.dfy ===
/** `DockerSetup.Install` (docker/docker_installer.go): the kernel-update
    steps, the reboot check, and the Docker installation steps, each list run
    in order until its first failure. Whether `/var/run/reboot-required`
    exists is an input; a scheduled reboot ends the process (`os.Exit(0)`),
    which is the `RebootScheduled` outcome here. */
module Installer {
  import opened Outcomes
  import opened Sequencing
  import opened Command

  /** One row of a step table: what the step is called in messages, and the
      command it runs. */
  datatype Step = Step(description: string, command: string)

  const KernelSteps: seq<Step> := [
    Step("Updating package list",
         "DEBIAN_FRONTEND=noninteractive apt-get update"),
    Step("Upgrading all packages",
         "DEBIAN_FRONTEND=noninteractive apt-get upgrade -y"),
    Step("Performing distribution upgrade (including kernel)",
         "DEBIAN_FRONTEND=noninteractive apt-get dist-upgrade -y")
  ]

  const DockerSteps: seq<Step> := [
    Step("Installing required packages",
         "DEBIAN_FRONTEND=noninteractive apt-get install -y apt-transport-https ca-certificates curl software-properties-common"),
    Step("Adding Docker's GPG key",
         "curl -fsSL https://download.docker.com/linux/ubuntu/gpg | sudo gpg --dearmor -o /usr/share/keyrings/docker-archive-keyring.gpg"),
    Step("Setting up Docker repository",
         "echo \"deb [arch=$(dpkg --print-architecture) signed-by=/usr/share/keyrings/docker-archive-keyring.gpg] https://download.docker.com/linux/ubuntu $(lsb_release -cs) stable\" | sudo tee /etc/apt/sources.list.d/docker.list > /dev/null"),
    Step("Updating package list with Docker repository",
         "DEBIAN_FRONTEND=noninteractive apt-get update"),
    Step("Installing Docker Engine",
         "DEBIAN_FRONTEND=noninteractive apt-get install -y docker-ce docker-ce-cli containerd.io"),
    Step("Setting up Docker group",
         "sudo groupadd docker || true && sudo usermod -aG docker $USER"),
    Step("Enabling Docker service",
         "sudo systemctl enable docker && sudo systemctl start docker"),
    Step("Installing Docker Compose",
         "sudo curl -L \"https://github.com/docker/compose/releases/latest/download/docker-compose-$(uname -s)-$(uname -m)\" -o /usr/local/bin/docker-compose && sudo chmod +x /usr/local/bin/docker-compose"),
    Step("Setting correct permissions for Docker socket",
         "sudo chmod 666 /var/run/docker.sock"),
    Step("Verifying Docker installation",
         "docker run hello-world")
  ]

  const RebootCommand := "sudo shutdown -r +1"

  /** A step table as a command list: a failing step's error is prefixed
      with "<description> failed: ". */
  function StepsOf(table: seq<Step>): (steps: seq<CommandStep>)
    ensures |steps| == |table|
    ensures forall j :: 0 <= j < |table| ==>
              steps[j] == CommandStep(table[j].description + " failed: ", table[j].command)
  {
    if |table| == 0 then []
    else [CommandStep(table[0].description + " failed: ", table[0].command)] + StepsOf(table[1..])
  }

  datatype InstallOutcome = Installed | InstallFailed(msg: string) | RebootScheduled

  /** The command lines `ExecuteCommand` built and printed, in order, and how
      `Install` ended. */
  datatype Installation = Installation(log: seq<string>, outcome: InstallOutcome)

  /** `Install`, over its two step tables. */
  function Install(os: nat -> Process, rebootRequired: bool): Installation {
    InstallWith(KernelSteps, DockerSteps, os, rebootRequired)
  }

  /** The body of `Install` for any kernel table and Docker table: run the
      kernel steps; then either schedule a reboot and stop, or run the Docker
      steps. */
  function InstallWith(kernelSteps: seq<Step>, dockerSteps: seq<Step>, os: nat -> Process, rebootRequired: bool)
    : (r: Installation)
    ensures r.outcome.Installed? ==>
              !rebootRequired && r.log == Issued(StepsOf(kernelSteps)) + Issued(StepsOf(dockerSteps))
    ensures r.outcome.RebootScheduled? ==> rebootRequired
    ensures rebootRequired ==> |r.log| <= |kernelSteps| + 1
  {
    var kernel := RunCommands(StepsOf(kernelSteps), [], os);
    RunCommandsLog(StepsOf(kernelSteps), [], os);
    if kernel.outcome.Err? then
      Installation(kernel.state, InstallFailed(kernel.outcome.msg))
    else if rebootRequired then
      var e := Execute(RebootCommand, os(|kernel.state|));
      var log := kernel.state + [e.command];
      if e.outcome.Err? then Installation(log, InstallFailed("failed to schedule reboot: " + e.outcome.msg))
      else Installation(log, RebootScheduled)
    else
      CommandsDone(StepsOf(kernelSteps), [], os);
      var docker := RunCommands(StepsOf(dockerSteps), kernel.state, os);
      if docker.outcome.Ok? then
        CommandsDone(StepsOf(dockerSteps), kernel.state, os);
        Installation(docker.state, Installed)
      else
        Installation(docker.state, InstallFailed(docker.outcome.msg))
  }

  /** A command list that succeeded ran every entry and logged every
      command line. */
  lemma {:induction false} CommandsDone(steps: seq<CommandStep>, log: seq<string>, os: nat -> Process)
    requires RunCommands(steps, log, os).outcome.Ok?
    ensures RunCommands(steps, log, os) == Run(log + Issued(steps), |steps|, Ok)
  {
    RunCommandsLog(steps, log, os);
    assert steps[..|steps|] == steps;
  }

  /** `Install` completes exactly when no reboot is required and every
      kernel step and every Docker step succeeds. */
  lemma {:induction false} InstallSucceeds(kernelSteps: seq<Step>, dockerSteps: seq<Step>, os: nat -> Process, rebootRequired: bool)
    ensures InstallWith(kernelSteps, dockerSteps, os, rebootRequired).outcome.Installed?
            <==> && !rebootRequired
                 && AllSucceed(StepsOf(kernelSteps), [], os)
                 && AllSucceed(StepsOf(dockerSteps), Issued(StepsOf(kernelSteps)), os)
  {
    var ks := StepsOf(kernelSteps);
    RunCommandsOk(ks, [], os);
    var kernel := RunCommands(ks, [], os);
    if kernel.outcome.Ok? {
      CommandsDone(ks, [], os);
      assert [] + Issued(ks) == Issued(ks);
      RunCommandsOk(StepsOf(dockerSteps), Issued(ks), os);

    }
  }

  /** The first failing kernel step stops `Install`: only the kernel steps up
      to it ran, no reboot check or Docker step followed, and the error is
      that step's error behind its description. */
  lemma {:induction false} InstallKernelFailure(kernelSteps: seq<Step>, dockerSteps: seq<Step>, os: nat -> Process,
                             rebootRequired: bool, j: nat)
    requires j < |kernelSteps|
    requires Attempt(StepsOf(kernelSteps), [], os, j).outcome.Err?
    requires forall i :: 0 <= i < j ==> Attempt(StepsOf(kernelSteps), [], os, i).outcome.Ok?
    ensures InstallWith(kernelSteps, dockerSteps, os, rebootRequired)
              == Installation(Issued(StepsOf(kernelSteps)[..j + 1]),
                              InstallFailed(kernelSteps[j].description + " failed: "
                                            + Attempt(StepsOf(kernelSteps), [], os, j).outcome.msg))
  {
    RunCommandsFirstFailure(StepsOf(kernelSteps), [], os, j);
  }

  /** With every kernel step done and a reboot required, `Install` schedules
      the reboot as its next and last command and runs no Docker step. */
  lemma {:induction false} InstallReboot(kernelSteps: seq<Step>, dockerSteps: seq<Step>, os: nat -> Process)
    requires AllSucceed(StepsOf(kernelSteps), [], os)
    ensures var e := Execute(RebootCommand, os(|kernelSteps|));
            var r := InstallWith(kernelSteps, dockerSteps, os, true);
            && r.log == Issued(StepsOf(kernelSteps)) + [Rewrite(RebootCommand)]
            && r.outcome == (if e.outcome.Ok? then RebootScheduled
                             else InstallFailed("failed to schedule reboot: " + e.outcome.msg))
  {
    var ks := StepsOf(kernelSteps);
    RunCommandsOk(ks, [], os);
    CommandsDone(ks, [], os);
    assert [] + Issued(ks) == Issued(ks);
  }

  /** Without a reboot, the first failing Docker step stops `Install`: the
      kernel steps and the Docker steps up to it ran, and the error is that
      step's error behind its description. */
  lemma {:induction false} InstallDockerFailure(kernelSteps: seq<Step>, dockerSteps: seq<Step>, os: nat -> Process, j: nat)
    requires AllSucceed(StepsOf(kernelSteps), [], os)
    requires j < |dockerSteps|
    requires Attempt(StepsOf(dockerSteps), Issued(StepsOf(kernelSteps)), os, j).outcome.Err?
    requires forall i :: 0 <= i < j ==> Attempt(StepsOf(dockerSteps), Issued(StepsOf(kernelSteps)), os, i).outcome.Ok?
    ensures InstallWith(kernelSteps, dockerSteps, os, false)
              == Installation(Issued(StepsOf(kernelSteps)) + Issued(StepsOf(dockerSteps)[..j + 1]),
                              InstallFailed(dockerSteps[j].description + " failed: "
                                            + Attempt(StepsOf(dockerSteps), Issued(StepsOf(kernelSteps)), os, j).outcome.msg))
  {
    var ks := StepsOf(kernelSteps);
    RunCommandsOk(ks, [], os);
    CommandsDone(ks, [], os);
    assert [] + Issued(ks) == Issued(ks);
    RunCommandsFirstFailure(StepsOf(dockerSteps), Issued(ks), os, j);
  }
}

=== FILE: outcomes.dfy ===
/** Go's error-return conventions, as values.
    A Go function returning `error` yields `Ok` for nil and `Err(msg)` for an
    error whose `Error()` text is `msg`; one returning `(*T, error)` yields a
    `Result<T>`. */
module Outcomes {

  /** The result of a Go function whose only return value is an `error`. */
  datatype Outcome = Ok | Err(msg: string)

  /** The result of a Go function returning `(*T, error)`: exactly one of the
      two is meaningful. */
  datatype Result<+T> = Success(value: T) | Failure(error: string)

  datatype Option<+T> = None | Some(value: T)

  /** `fmt.Errorf(prefix + "%v", err)`: nil stays nil, an error gains `prefix`. */
  function Wrap(prefix: string, o: Outcome): (r: Outcome)
    ensures r.Ok? <==> o.Ok?
    ensures r.Err? ==> r.msg == prefix + o.msg
  {
    match o
    case Ok => Ok
    case Err(m) => Err(prefix + m)
  }
}

=== FILE: sequencing.dfy ===
/** Stop-at-first-failure sequencing.

    The installer's two step tables, the certificate command list and the
    deployment pipeline all follow one pattern: perform the steps in list
    order, threading some state through them, and return as soon as one step
    returns an error, without performing the steps after it. `RunAll` is that
    pattern, once; the lemmas below are what the callers rely on. */
module Sequencing {
  import opened Outcomes

  /** What a single step leaves behind: the new state and the step's error. */
  datatype Stepped<S> = Stepped(state: S, outcome: Outcome)

  /** What a run of steps leaves behind: the final state, how many steps were
      performed (the failing one included), and the error that stopped the run,
      if any. */
  datatype Run<S> = Run(state: S, ran: nat, outcome: Outcome)

  function RunAll<T, S>(steps: seq<T>, s: S, step: (T, S) -> Stepped<S>): (r: Run<S>)
    ensures r.ran <= |steps|
    ensures r.outcome.Ok? ==> r.ran == |steps|
    ensures r.outcome.Err? ==> 1 <= r.ran
    ensures |steps| == 0 ==> r == Run(s, 0, Ok)
    decreases |steps|
  {
    if |steps| == 0 then Run(s, 0, Ok)
    else
      var first := step(steps[0], s);
      if first.outcome.Err? then Run(first.state, 1, first.outcome)
      else
        var rest := RunAll(steps[1..], first.state, step);
        Run(rest.state, rest.ran + 1, rest.outcome)
  }

  /** Running `a + b` is running `a` and, only if that succeeded, running `b`
      from the state `a` left behind. */
  lemma {:induction false} RunAllAppend<T, S>(a: seq<T>, b: seq<T>, s: S, step: (T, S) -> Stepped<S>)
    ensures var ra := RunAll(a, s, step);
            var rb := RunAll(b, ra.state, step);
            RunAll(a + b, s, step)
              == if ra.outcome.Err? then ra else Run(rb.state, |a| + rb.ran, rb.outcome)
    decreases |a|
  {
    if |a| == 0 {
      assert a + b == b;
    } else {
      assert (a + b)[0] == a[0];
      assert (a + b)[1..] == a[1..] + b;
      var first := step(a[0], s);
      if first.outcome.Ok? {
        RunAllAppend(a[1..], b, first.state, step);
      }
    }
  }

  /** A run that fails stopped at its last performed step: every step before
      it succeeded, and that step, performed on the state the earlier steps
      left behind, produced exactly the final state and error. */
  lemma {:induction false} RunAllFailure<T, S>(steps: seq<T>, s: S, step: (T, S) -> Stepped<S>)
    requires RunAll(steps, s, step).outcome.Err?
    ensures var r := RunAll(steps, s, step);
            var before := RunAll(steps[..r.ran - 1], s, step);
            && before.outcome.Ok?
            && before.ran == r.ran - 1
            && step(steps[r.ran - 1], before.state) == Stepped(r.state, r.outcome)
  {
    var r := RunAll(steps, s, step);
    var k := r.ran - 1;
    assert steps == steps[..k] + steps[k..];
    RunAllAppend(steps[..k], steps[k..], s, step);
    var before := RunAll(steps[..k], s, step);
    var tail := RunAll(steps[k..], before.state, step);
    assert steps[k..][0] == steps[k];
  }

  /** A failed run performs nothing after the failing step: replacing every
      later step by arbitrary other steps gives back the same run. */
  lemma {:induction false} RunAllIgnoresLaterSteps<T, S>(steps: seq<T>, later: seq<T>, s: S, step: (T, S) -> Stepped<S>)
    requires RunAll(steps, s, step).outcome.Err?
    ensures var r := RunAll(steps, s, step);
            RunAll(steps[..r.ran] + later, s, step) == r
  {
    var r := RunAll(steps, s, step);
    assert steps == steps[..r.ran] + steps[r.ran..];
    RunAllAppend(steps[..r.ran], steps[r.ran..], s, step);
    RunAllAppend(steps[..r.ran], later, s, step);
  }

  /** A run succeeds exactly when every prefix of it succeeds. */
  lemma {:induction false} RunAllPrefixSucceeds<T, S>(steps: seq<T>, k: nat, s: S, step: (T, S) -> Stepped<S>)
    requires k <= |steps|
    requires RunAll(steps, s, step).outcome.Ok?
    ensures RunAll(steps[..k], s, step).outcome.Ok?
  {
    assert steps == steps[..k] + steps[k..];
    RunAllAppend(steps[..k], steps[k..], s, step);
  }
}

=== FILE: templates.dfy ===
/** The text artifacts a deployment writes: the fallback Dockerfile, the
    docker-compose file with its environment block, and the nginx site
    configuration (docker/deployer.go). */
module Templates {
  import opened Text

  /** The port every deployed container is assumed to listen on. */
  const InternalPort := "8080"

  /** The shared docker network every service joins. */
  const NetworkName := "deployment-network"

  /** The lines of the Dockerfile written when a cloned repository has none
      of its own: it builds a Go program. */
  const DefaultDockerfileLines := [
    "FROM golang:1.21-alpine\n",
    "WORKDIR /app\n",
    "COPY . .\n",
    "RUN go mod download\n",
    "RUN go build -o main .\n",
    "EXPOSE " + InternalPort + "\n",
    "CMD [\"./main\"]"
  ]

  const DefaultDockerfile := Concat(DefaultDockerfileLines)

  /** The fallback image builds with the Go toolchain and exposes the port
      the compose file maps to. */
  lemma {:induction false} DefaultDockerfileExposesInternalPort()
    ensures HasPrefix(DefaultDockerfile, "FROM golang:1.21-alpine\n")
    ensures Contains(DefaultDockerfile, "EXPOSE " + InternalPort + "\n")
  {
    ConcatPrefix(DefaultDockerfileLines);
    ConcatContains(DefaultDockerfileLines, 5);
  }

  // ---------------------------------------------------------------------
  // The environment block
  // ---------------------------------------------------------------------

  /** One `environment:` entry of the compose file. */
  function EnvLine(key: string, value: string): string {
    "      - " + key + "=" + value + "\n"
  }

  /** `entries` is a sequence in which a Go `range` over `env` may yield its
      key/value pairs: each entry of the map exactly once, in any order. */
  ghost predicate IsIterationOrder(entries: seq<(string, string)>, env: map<string, string>) {
    multiset(entries) == multiset(env.Items)
  }

  /** The lines written for `entries`, one per entry, in that order. */
  function EnvLines(entries: seq<(string, string)>): (lines: seq<string>)
    ensures |lines| == |entries|
    ensures forall i :: 0 <= i < |entries| ==> lines[i] == EnvLine(entries[i].0, entries[i].1)
  {
    if |entries| == 0 then []
    else [EnvLine(entries[0].0, entries[0].1)] + EnvLines(entries[1..])
  }

  /** The text substituted for the environment placeholder of the compose
      template, when the map yields its entries as `entries`. */
  function EnvBlock(entries: seq<(string, string)>): string {
    Concat(EnvLines(entries))
  }

  /** The environment lines written for `entries` are those of `env`: one
      line per variable, every variable has its `key=value` line, and every
      line is the line of a variable with its value. */
  ghost predicate CarriesEnv(entries: seq<(string, string)>, env: map<string, string>) {
    var lines := EnvLines(entries);
    && |lines| == |env|
    && (forall k :: k in env ==> EnvLine(k, env[k]) in lines)
    && (forall i :: 0 <= i < |entries| ==> entries[i].0 in env && lines[i] == EnvLine(entries[i].0, env[entries[i].0]))
  }

  lemma {:induction false} EnvLinesAppend(a: seq<(string, string)>, b: seq<(string, string)>)
    ensures EnvLines(a + b) == EnvLines(a) + EnvLines(b)
  {
    var l := EnvLines(a + b);
    var r := EnvLines(a) + EnvLines(b);
    assert |l| == |r|;
    forall i | 0 <= i < |l|
      ensures l[i] == r[i]
    {
      if i < |a| {
        assert (a + b)[i] == a[i];
      } else {
        assert (a + b)[i] == b[i - |a|];
      }
    }
  }

  /** Removing the element at `k` removes one copy of it from the multiset. */
  lemma {:induction false} RemoveAt<T>(b: seq<T>, k: nat)
    requires k < |b|
    ensures multiset(b[..k] + b[k + 1..]) == multiset(b) - multiset{b[k]}
  {
    assert b == b[..k] + [b[k]] + b[k + 1..];
    assert multiset(b) == multiset(b[..k]) + multiset{b[k]} + multiset(b[k + 1..]);
  }

  /** A position of `x` in `b`, when `x` is one of its elements. */
  lemma {:induction false} IndexOfMember<T>(b: seq<T>, x: T, m: multiset<T>) returns (k: nat)
    requires m == multiset(b) && x in m
    ensures k < |b| && b[k] == x
  {
    assert x in multiset(b);
    k :| 0 <= k < |b| && b[k] == x;
  }

  /** The entry at `k` contributes one line. */
  lemma {:induction false} EnvLinesRemoveAt(b: seq<(string, string)>, k: nat)
    requires k < |b|
    ensures multiset(EnvLines(b)) == multiset(EnvLines(b[..k] + b[k + 1..])) + multiset{EnvLine(b[k].0, b[k].1)}
  {
    assert b[..k] + ([b[k]] + b[k + 1..]) == b;
    EnvLinesAppend(b[..k], [b[k]] + b[k + 1..]);
    EnvLinesAppend([b[k]], b[k + 1..]);
    EnvLinesAppend(b[..k], b[k + 1..]);
  }

  /** Entry sequences that are permutations of each other give permutations
      of the same lines. */
  lemma {:induction false} EnvLinesPermutation(a: seq<(string, string)>, b: seq<(string, string)>)
    requires multiset(a) == multiset(b)
    ensures multiset(EnvLines(a)) == multiset(EnvLines(b))
    decreases |a|
  {
    if |a| == 0 {
      assert |multiset(b)| == 0;
      assert b == [];
    } else {
      var k := IndexOfMember(b, a[0], multiset(a));
      var rest := b[..k] + b[k + 1..];
      PermutationTail(a, b, k);
      EnvLinesPermutation(a[1..], rest);
      EnvLinesRemoveAt(b, k);
      EnvLinesHead(a);
    }
  }

  /** Taking the first element off `a` and a copy of it off `b` leaves
      permutations of each other. */
  lemma {:induction false} PermutationTail<T>(a: seq<T>, b: seq<T>, k: nat)
    requires multiset(a) == multiset(b) && 0 < |a| && k < |b| && b[k] == a[0]
    ensures multiset(a[1..]) == multiset(b[..k] + b[k + 1..])
  {
    RemoveAt(b, k);
    assert a == [a[0]] + a[1..];
    assert multiset(a) == multiset{a[0]} + multiset(a[1..]);
  }

  /** The first entry contributes one line. */
  lemma {:induction false} EnvLinesHead(a: seq<(string, string)>)
    requires 0 < |a|
    ensures multiset(EnvLines(a)) == multiset(EnvLines(a[1..])) + multiset{EnvLine(a[0].0, a[0].1)}
  {
    EnvLinesRemoveAt(a, 0);
    assert a[..0] + a[1..] == a[1..];
  }

  /** The environment block has the same lines whatever order the map is
      visited in: only their order within the block varies. */
  lemma {:induction false} EnvBlockOrderIndependent(env: map<string, string>, o1: seq<(string, string)>, o2: seq<(string, string)>)
    requires IsIterationOrder(o1, env) && IsIterationOrder(o2, env)
    ensures multiset(EnvLines(o1)) == multiset(EnvLines(o2))
  {
    EnvLinesPermutation(o1, o2);
  }

  lemma {:induction false} SetMultisetSize<T>(s: set<T>)
    ensures |multiset(s)| == |s|
    decreases |s|
  {
    if s != {} {
      var x :| x in s;
      SetMultisetSize(s - {x});
      assert multiset(s) == multiset(s - {x}) + multiset{x};
    }
  }

  /** One line per variable, every variable has its `key=value` line, and
      every line is the line of a variable. */
  lemma {:induction false} EnvBlockEntries(env: map<string, string>, entries: seq<(string, string)>)
    requires IsIterationOrder(entries, env)
    ensures |EnvLines(entries)| == |env|
    ensures forall k :: k in env ==> EnvLine(k, env[k]) in EnvLines(entries)
    ensures forall i :: 0 <= i < |entries| ==> entries[i].0 in env && EnvLines(entries)[i] == EnvLine(entries[i].0, env[entries[i].0])
  {
    var lines := EnvLines(entries);
    assert |multiset(entries)| == |entries|;
    SetMultisetSize(env.Items);
    MapItemsSize(env);
    forall k | k in env
      ensures EnvLine(k, env[k]) in lines
    {
      assert (k, env[k]) in env.Items;
      var i := IndexOfMember(entries, (k, env[k]), multiset(env.Items));
      assert lines[i] == EnvLine(k, env[k]);
    }
    forall i | 0 <= i < |entries|
      ensures entries[i].0 in env && lines[i] == EnvLine(entries[i].0, env[entries[i].0])
    {
      assert entries[i] in multiset(entries);
      assert entries[i] in env.Items;
    }
  }

  lemma {:induction false} MapItemsSize(env: map<string, string>)
    ensures |env.Items| == |env|
    decreases |env|
  {
    if |env| > 0 {
      var k :| k in env;
      var smaller := env - {k};
      MapItemsSize(smaller);
      assert env.Items == smaller.Items + {(k, env[k])} by {
        forall item | item in env.Items
          ensures item in smaller.Items + {(k, env[k])}
        {
          if item.0 != k {
            assert item.0 in smaller;
          }
        }
      }
      assert (k, env[k]) !in smaller.Items;
    }
  }

  /** An empty map contributes nothing to the compose file. */
  lemma {:induction false} EnvBlockEmpty(entries: seq<(string, string)>)
    requires IsIterationOrder(entries, map[])
    ensures EnvBlock(entries) == ""
  {
    assert |multiset(entries)| == 0;
    assert entries == [];
  }

  // ---------------------------------------------------------------------
  // docker-compose.yml and the nginx site
  // ---------------------------------------------------------------------

  /** The compose file for service `name`, publishing host port `port` on
      the internal port, with `envBlock` as its environment entries, piece by
      piece. */
  function ComposePieces(name: string, port: string, envBlock: string): seq<string> {
    [ "version: '3'\nservices:\n",
      "  " + name + ":\n    build: .\n",
      "    ports:\n",
      "      - \"" + port + ":" + InternalPort + "\"\n",
      "    environment:\n" + envBlock + "\n    restart: always\n",
      "    networks:\n      - " + NetworkName + "\n",
      "\n",
      "networks:\n  " + NetworkName + ":\n    external: true" ]
  }

  function ComposeFile(name: string, port: string, envBlock: string): string {
    Concat(ComposePieces(name, port, envBlock))
  }

  /** The compose file declares the service `name` built from the working
      directory, publishes the host port on the internal port, carries the
      environment block followed by the restart policy, and joins the
      external shared network. */
  lemma {:induction false} ComposeFileContents(name: string, port: string, envBlock: string)
    ensures var r := ComposeFile(name, port, envBlock);
            && HasPrefix(r, "version: '3'\nservices:\n")
            && Contains(r, "  " + name + ":\n    build: .\n")
            && Contains(r, "      - \"" + port + ":" + InternalPort + "\"\n")
            && Contains(r, "    environment:\n" + envBlock + "\n    restart: always\n")
            && Contains(r, "    networks:\n      - " + NetworkName + "\n")
            && Contains(r, "networks:\n  " + NetworkName + ":\n    external: true")
  {
    var pieces := ComposePieces(name, port, envBlock);
    ConcatPrefix(pieces);
    ConcatContains(pieces, 1);
    ConcatContains(pieces, 3);
    ConcatContains(pieces, 4);
    ConcatContains(pieces, 5);
    ConcatContains(pieces, 7);
  }

  /** The nginx server block routing `<name>.localhost` to the host port,
      piece by piece. */
  function NginxPieces(name: string, port: string): seq<string> {
    [ "\nserver {\n",
      "    listen 80;\n    server_name " + name + ".localhost;\n",
      "\n    location / {\n",
      "        proxy_pass http://localhost:" + port + ";\n",
      "        proxy_http_version 1.1;\n",
      "        proxy_set_header Upgrade $http_upgrade;\n        proxy_set_header Connection 'upgrade';\n",
      "        proxy_set_header Host $host;\n        proxy_cache_bypass $http_upgrade;\n    }\n}" ]
  }

  function NginxConfig(name: string, port: string): string {
    Concat(NginxPieces(name, port))
  }

  /** The site answers for `<name>.localhost` on port 80 and proxies to the
      host port, passing WebSocket upgrades through. */
  lemma {:induction false} NginxConfigContents(name: string, port: string)
    ensures var r := NginxConfig(name, port);
            && Contains(r, "    listen 80;\n    server_name " + name + ".localhost;\n")
            && Contains(r, "        proxy_pass http://localhost:" + port + ";\n")
            && Contains(r, "        proxy_set_header Upgrade $http_upgrade;\n        proxy_set_header Connection 'upgrade';\n")
  {
    var pieces := NginxPieces(name, port);
    ConcatContains(pieces, 1);
    ConcatContains(pieces, 3);
    ConcatContains(pieces, 5);
  }
}

=== FILE: text.dfy ===
/** The handful of Go `strings` functions the core relies on, over `string`
    (a `seq<char>`): substring search, first-occurrence replacement,
    splitting on `/`, and suffix trimming. */
module Text {
  import opened Outcomes

  /** `pat` occurs in `s` starting at index `i`. */
  predicate MatchAt(s: string, pat: string, i: nat) {
    i + |pat| <= |s| && s[i..i + |pat|] == pat
  }

  /** `strings.Contains(s, pat)`. */
  ghost predicate Contains(s: string, pat: string) {
    exists i: nat :: MatchAt(s, pat, i)
  }

  /** `i` is the leftmost occurrence of `pat` in `s`. */
  ghost predicate IsFirstMatch(s: string, pat: string, i: nat) {
    MatchAt(s, pat, i) && forall j: nat :: j < i ==> !MatchAt(s, pat, j)
  }

  predicate HasPrefix(s: string, prefix: string) {
    |prefix| <= |s| && s[..|prefix|] == prefix
  }

  predicate HasSuffix(s: string, suffix: string) {
    |suffix| <= |s| && s[|s| - |suffix|..] == suffix
  }

  /** The leftmost occurrence of `pat` in `s` at or after `from`. */
  function IndexFrom(s: string, pat: string, from: nat): (r: Option<nat>)
    requires from <= |s|
    ensures r.Some? ==> from <= r.value && MatchAt(s, pat, r.value)
    ensures r.Some? ==> forall j: nat :: from <= j < r.value ==> !MatchAt(s, pat, j)
    ensures r.None? ==> forall j: nat :: from <= j ==> !MatchAt(s, pat, j)
    decreases |s| - from
  {
    if MatchAt(s, pat, from) then Some(from)
    else if from == |s| then None
    else IndexFrom(s, pat, from + 1)
  }

  /** `strings.Index(s, pat)`, with `None` for Go's -1. */
  function Index(s: string, pat: string): (r: Option<nat>)
    ensures r.Some? <==> Contains(s, pat)
    ensures r.Some? ==> IsFirstMatch(s, pat, r.value)
  {
    IndexFrom(s, pat, 0)
  }

  /** The leftmost occurrence is unique. */
  lemma {:induction false} FirstMatchUnique(s: string, pat: string, i: nat, j: nat)
    requires IsFirstMatch(s, pat, i) && IsFirstMatch(s, pat, j)
    ensures i == j
  {
  }

  /** `strings.Replace(s, target, replacement, 1)`: the leftmost occurrence of `target`,
      if any, is replaced by `replacement`; everything before and after it is kept. */
  function ReplaceFirst(s: string, target: string, replacement: string): (r: string)
    ensures !Contains(s, target) ==> r == s
    ensures forall i: nat {:trigger IsFirstMatch(s, target, i)} ::
              IsFirstMatch(s, target, i) ==> r == s[..i] + replacement + s[i + |target|..]
  {
    match Index(s, target)
    case None => s
    case Some(i) =>
      assert forall j: nat {:trigger IsFirstMatch(s, target, j)} :: IsFirstMatch(s, target, j) ==> j == i by {
        forall j: nat | IsFirstMatch(s, target, j) ensures j == i {
          FirstMatchUnique(s, target, i, j);
        }
      }
      s[..i] + replacement + s[i + |target|..]
  }

  /** A witnessed occurrence. */
  lemma {:induction false} ContainsAt(a: string, t: string, b: string)
    ensures Contains(a + t + b, t)
  {
    assert MatchAt(a + t + b, t, |a|) by {
      assert (a + t + b)[|a|..|a| + |t|] == t;
    }
  }

  /** The pieces written one after another (a `strings.Builder`). */
  function Concat(pieces: seq<string>): string {
    if |pieces| == 0 then "" else pieces[0] + Concat(pieces[1..])
  }

  /** Every piece occurs in the text the pieces make up. */
  lemma {:induction false} ConcatContains(pieces: seq<string>, k: nat)
    requires k < |pieces|
    ensures Contains(Concat(pieces), pieces[k])
    decreases k
  {
    var rest := Concat(pieces[1..]);
    if k == 0 {
      assert Concat(pieces) == "" + pieces[0] + rest;
      ContainsAt("", pieces[0], rest);
    } else {
      ConcatContains(pieces[1..], k - 1);
      var i: nat :| MatchAt(rest, pieces[k], i);
      assert (pieces[0] + rest)[|pieces[0]| + i..|pieces[0]| + i + |pieces[k]|] == rest[i..i + |pieces[k]|];
      assert MatchAt(Concat(pieces), pieces[k], |pieces[0]| + i);
    }
  }

  /** The text starts with the first piece. */
  lemma {:induction false} ConcatPrefix(pieces: seq<string>)
    requires 0 < |pieces|
    ensures HasPrefix(Concat(pieces), pieces[0])
  {
    assert (pieces[0] + Concat(pieces[1..]))[..|pieces[0]|] == pieces[0];
  }

  /** `strings.TrimSuffix(s, suffix)`: removes one trailing `suffix`, if present. */
  function TrimSuffix(s: string, suffix: string): (r: string)
    ensures HasSuffix(s, suffix) ==> r + suffix == s
    ensures !HasSuffix(s, suffix) ==> r == s
  {
    if HasSuffix(s, suffix) then
      assert s == s[..|s| - |suffix|] + s[|s| - |suffix|..];
      s[..|s| - |suffix|]
    else s
  }

  /** `strings.Join(parts, "/")`. */
  function JoinSlash(parts: seq<string>): string
    decreases |parts|
  {
    if |parts| == 0 then ""
    else if |parts| == 1 then parts[0]
    else parts[0] + "/" + JoinSlash(parts[1..])
  }

  /** `strings.Split(s, "/")`: the maximal `/`-free pieces of `s`, in order.
      There is always at least one piece, and joining them back with `/`
      gives `s`. */
  function SplitSlash(s: string): (parts: seq<string>)
    ensures |parts| >= 1
    ensures forall i :: 0 <= i < |parts| ==> '/' !in parts[i]
    ensures JoinSlash(parts) == s
    decreases |s|
  {
    if |s| == 0 then [""]
    else
      var rest := SplitSlash(s[1..]);
      assert s == [s[0]] + s[1..];
      if s[0] == '/' then
        JoinAfterSlash(rest, s[1..]);
        [""] + rest
      else
        JoinExtendFirst(s[0], rest, s[1..]);
        [[s[0]] + rest[0]] + rest[1..]
  }

  /** A leading `/` starts a new, empty first piece. */
  lemma {:induction false} JoinAfterSlash(rest: seq<string>, t: string)
    requires |rest| >= 1 && JoinSlash(rest) == t
    requires forall i :: 0 <= i < |rest| ==> '/' !in rest[i]
    ensures var parts := [""] + rest;
            && JoinSlash(parts) == "/" + t
            && forall i :: 0 <= i < |parts| ==> '/' !in parts[i]
  {
    var parts := [""] + rest;
    assert parts[1..] == rest;
    forall i | 0 <= i < |parts| ensures '/' !in parts[i] {
      if i > 0 { assert parts[i] == rest[i - 1]; }
    }
  }

  /** Any other leading character extends the first piece. */
  lemma {:induction false} JoinExtendFirst(c: char, rest: seq<string>, t: string)
    requires c != '/' && |rest| >= 1 && JoinSlash(rest) == t
    requires forall i :: 0 <= i < |rest| ==> '/' !in rest[i]
    ensures var parts := [[c] + rest[0]] + rest[1..];
            && JoinSlash(parts) == [c] + t
            && forall i :: 0 <= i < |parts| ==> '/' !in parts[i]
  {
    var parts := [[c] + rest[0]] + rest[1..];
    assert parts[1..] == rest[1..];
    if |rest| > 1 {
      assert JoinSlash(rest) == rest[0] + "/" + JoinSlash(rest[1..]);
    }
    forall i | 0 <= i < |parts| ensures '/' !in parts[i] {
      if i > 0 { assert parts[i] == rest[i]; }
      else {
        assert '/' !in rest[0];
        forall k | 0 <= k < |parts[0]| ensures parts[0][k] != '/' {
          if k > 0 { assert parts[0][k] == rest[0][k - 1]; }
        }
      }
    }
  }

  /** Splitting a single `/`-free piece gives that piece back. */
  lemma {:induction false} SplitSlashNoSlash(p: string)
    requires '/' !in p
    ensures SplitSlash(p) == [p]
    decreases |p|
  {
    if |p| > 0 {
      assert '/' !in p[1..] by {
        forall k | 0 <= k < |p[1..]| ensures p[1..][k] != '/' { assert p[1..][k] == p[k + 1]; }
      }
      SplitSlashNoSlash(p[1..]);
      assert [p[0]] + p[1..] == p;
    }
  }

  /** Splitting `p + "/" + t` with a `/`-free `p` yields `p` followed by the
      pieces of `t`. */
  lemma {:induction false} SplitSlashCons(p: string, t: string)
    requires '/' !in p
    ensures SplitSlash(p + "/" + t) == [p] + SplitSlash(t)
    decreases |p|
  {
    var s := p + "/" + t;
    if |p| == 0 {
      assert s[1..] == t;
    } else {
      assert '/' !in p[1..] by {
        forall k | 0 <= k < |p[1..]| ensures p[1..][k] != '/' { assert p[1..][k] == p[k + 1]; }
      }
      assert s[1..] == p[1..] + "/" + t;
      SplitSlashCons(p[1..], t);
      assert [p[0]] + p[1..] == p;
    }
  }

  /** The other round trip: splitting a `/`-join of `/`-free pieces gives the
      pieces back. */
  lemma {:induction false} SplitJoinSlash(parts: seq<string>)
    requires |parts| >= 1
    requires forall i :: 0 <= i < |parts| ==> '/' !in parts[i]
    ensures SplitSlash(JoinSlash(parts)) == parts
    decreases |parts|
  {
    if |parts| == 1 {
      SplitSlashNoSlash(parts[0]);
    } else {
      SplitJoinSlash(parts[1..]);
      SplitSlashCons(parts[0], JoinSlash(parts[1..]));
    }
  }

  /** `parts[len(parts)-1]` after `strings.Split(s, "/")`. */
  function LastSegment(s: string): (r: string)
    ensures '/' !in r
  {
    var parts := SplitSlash(s);
    parts[|parts| - 1]
  }

  /** `q` is the longest `/`-free suffix of `s`: it is a suffix, has no `/`,
      and is either all of `s` or preceded by a `/`. */
  ghost predicate IsLastSegment(s: string, q: string) {
    && HasSuffix(s, q)
    && '/' !in q
    && (|q| == |s| || s[|s| - |q| - 1] == '/')
  }

  /** A last segment of `s[1..]` stays one of `s` unless it spans all of
      `s[1..]` and `s[0]` is not a `/`. */
  lemma {:induction false} LastSegmentExtend(s: string, q: string)
    requires |s| > 0
    requires IsLastSegment(s[1..], q)
    requires |q| < |s| - 1 || s[0] == '/'
    ensures IsLastSegment(s, q)
  {
    assert s[|s| - |q|..] == s[1..][|s| - 1 - |q|..];
    if |q| < |s| - 1 {
      assert s[|s| - |q| - 1] == s[1..][|s| - 1 - |q| - 1];
    }
  }

  /** A string with a `/` in it is not its own last segment. */
  lemma {:induction false} SlashNotLast(t: string, parts: seq<string>)
    requires |parts| >= 2
    requires JoinSlash(parts) == t
    ensures '/' in t
  {
    assert t == parts[0] + "/" + JoinSlash(parts[1..]);
    assert t[|parts[0]|] == '/';
  }

  /** `LastSegment` computes exactly the text after the last `/`. */
  lemma {:induction false} LastSegmentIsLast(s: string)
    ensures IsLastSegment(s, LastSegment(s))
    decreases |s|
  {
    if |s| > 0 {
      var rest := SplitSlash(s[1..]);
      LastSegmentIsLast(s[1..]);
      var q := LastSegment(s[1..]);
      if s[0] == '/' {
        assert SplitSlash(s) == [""] + rest;
        assert LastSegment(s) == q;
        LastSegmentExtend(s, q);
      } else if |rest| == 1 {
        assert SplitSlash(s) == [[s[0]] + rest[0]];
        assert rest[0] == s[1..];
        assert LastSegment(s) == [s[0]] + s[1..] == s;
      } else {
        assert SplitSlash(s) == [[s[0]] + rest[0]] + rest[1..];
        assert LastSegment(s) == q;
        SlashNotLast(s[1..], rest);
        LastSegmentExtend(s, q);
      }
    }
  }

  /** The longest `/`-free suffix is unique. */
  lemma {:induction false} LastSegmentUnique(s: string, q1: string, q2: string)
    requires IsLastSegment(s, q1) && IsLastSegment(s, q2)
    ensures q1 == q2
  {
  }

  /** Any suffix shown to be the longest `/`-free one is what `LastSegment` returns. */
  lemma {:induction false} LastSegmentOf(s: string, q: string)
    requires IsLastSegment(s, q)
    ensures LastSegment(s) == q
  {
    LastSegmentIsLast(s);
    LastSegmentUnique(s, LastSegment(s), q);
  }
}
